=== FILE: README.md ===
# HR onboarding agent — a Dafny model of its two pipelines

The repository has two scripts, and this project models both.

- **Resume parser** (`scripts/resume_parser.py`). It reads a PDF or DOCX résumé and asks a language model for a JSON description of the candidate. It cuts the first `{` … last `}` span out of the reply, flattens that object into a six-column row (name, email, phone, skills, education, work experience) and writes the row to CSV.
- **Task planner** (`scripts/task_planner.py`). It reads that row back and guesses a job title from the work-experience text. It asks the model for a JSON list of onboarding tasks and cuts the first `[` … last `]` span out of the reply. It then gives every task a due date, which is the start date plus the task's `due_in_days`, written in `YYYY-MM-DD` form. Finally it writes the tasks as six-column rows.

The model is purely functional Dafny. The failures listed below are `Result` errors here:

- a `ValueError` for an unsupported file or an unparsable reply;
- the `AttributeError`/`TypeError` raised while building the row;
- `StopIteration` for an empty CSV;
- the `ValueError`/`TypeError`/`OverflowError` raised while computing a due date.

Three collaborators become parameters:

- the language model, `ask`;
- the JSON decoder, `decode`, which stands for `json.loads`;
- the document readers: the PDF's page texts, and the DOCX text.

Modules, one per file:

| module | file | what it holds |
|---|---|---|
| `Outcomes` | outcomes.dfy | `Option`, `Result` |
| `Strings` | strings.dfy | Python's `isspace`, `strip`, `split`, `join`, `endswith` and `in`, on `seq<char>` |
| `Numerals` | numerals.dfy | decimal digits, Python's `int(str)`, zero-padded printing |
| `JsonValues` | json.dfy | decoded JSON values; objects as ordered key lists with `dict.get` and item assignment; Python's `str()` |
| `SpanLocator` | span.dfy | the greedy `\{[\s\S]*\}` / `\[.*\]` (DOTALL) search, and recovering the object or list from a reply |
| `Flattener` | flatten.dfy | `flatten_section` |
| `ResumeRecord` | record.dfy | `flat_data` and the CSV row it becomes |
| `ResumeParser` | resume_parser.dfy | `extract_text`, `_extract_pdf`, `_extract_docx`, `run` of the parser |
| `Skills` | skills.dfy | the skills list read back from the CSV cell |
| `JobTitle` | jobtitle.dfy | `extract_job_title`: the case-insensitive `position"\s*:\s*"([^"]+)"` search and the keyword fallback |
| `Calendar` | calendar.dfy | proleptic Gregorian dates as Python's `datetime` counts them (ordinals, years 1–9999), `timedelta` addition, `%Y-%m-%d` printing and parsing |
| `TaskPlan` | tasks.dfy | `read_resume_csv`, the due-date loop of `save_to_csv`, the task rows, `run` of the planner |

## Behaviour worth knowing

- **Negative offsets are applied.** The planner adds any integer that `int()` accepts, including a negative one. `TaskPlan.NegativeOffsetApplied` and `Calendar.ShiftExamples` state this: an offset of -1 from 2024-01-01 gives 2023-12-31.
- **Which offsets are accepted.** `int()` takes an integer, a boolean (as 0 or 1), and a numeric string. The string may have whitespace around it, one sign, and single `_` separators between digits. The whitespace `int()` skips is ASCII whitespace (tab, line feed, vertical tab, form feed, carriage return, space) and the non-ASCII characters `str.isspace()` accepts. The separators U+001C–U+001F are not skipped, although `str.isspace()` counts them, so `int("\x1c5")` is a `ValueError`. `Numerals.IntStrip` models this strip, and `Numerals.ParseSeparatorBefore` states the rejection. `TaskPlan.ToInt` states the integer and boolean cases. `Numerals.ParseIntMeaning` states the whole string grammar, and `Numerals.ParseUnsigned` and `Numerals.ParseSigned` state its value. `Numerals.ParseUnderscoreJoin` states that `1_000` reads as 1000. `Numerals.ParseLeadingUnderscore`, `Numerals.ParseTrailingUnderscore` and `Numerals.ParseDoubleUnderscore` state that `_1`, `1_` and `1__0` are rejected.
- **The greedy span.** The reply search takes the leftmost opener and the rightmost closer after it, without balancing delimiters. `SpanLocator.EmbeddedSpanRecovered` states when it still returns exactly the intended object: no opener before the object and no closer after it.
- **When the start date is checked.** The planner parses the start date inside `save_to_csv`, after the model has answered and before any row is written. `TaskPlan.ReplyCheckedBeforeStartDate` states that an unusable reply is reported even when the start date is also malformed.
- **The position pattern.** The planner looks for a `position"\s*:\s*"…"` fragment in the work-experience text. `flatten_section` writes a mapping entry as `position: value`, without quotes. So for entries without double quotes the pattern never matches what the parser wrote, and the title comes from the keywords. `TaskPlan.TitleFromKeywordsOnly` and `TaskPlan.PositionBecomesKeyword` state this.

## Model

| member | source | states |
|---|---|---|
| Strings.Strip | scripts/resume_parser.py:40 | the stripped text starts and ends with a non-whitespace character (or is empty) and is no longer than the input |
| Strings.StripCutsOnlySpace | scripts/resume_parser.py:40 | `strip()` removes only whitespace and only at the two ends: the result sits inside the input between two all-whitespace pieces |
| Strings.StripAfterSpaces | scripts/resume_parser.py:43 | leading whitespace in front of a document does not change its stripped text |
| Strings.StripBeforeSpaces | scripts/resume_parser.py:43 | trailing whitespace after a text does not change its stripped text |
| Strings.StripFramed | scripts/resume_parser.py:43 | whitespace on both sides of a text does not change its stripped text |
| Strings.StripKeepsOut | scripts/task_planner.py:32 | stripping never introduces a character the input did not contain |
| Strings.JoinEnds | scripts/resume_parser.py:94 | joining no parts gives the empty text; a join starts with its first part and ends with its last |
| Strings.JoinAppend | scripts/resume_parser.py:94 | joining two non-empty lists is joining each and putting one separator between them |
| Strings.JoinKeepsOut | scripts/resume_parser.py:90 | a character in neither the separator nor any part is not in the joined text |
| Strings.Split | scripts/task_planner.py:32 | `split(",")` gives at least one piece, no piece holds the separator, and joining the pieces back gives the input |
| Strings.SplitJoin | scripts/task_planner.py:32 | splitting a join of separator-free pieces gives back exactly those pieces |
| Strings.SplitAppend | scripts/task_planner.py:32 | splitting `a,b` is splitting `a` followed by splitting `b` |
| Strings.IndexOfChar | scripts/resume_parser.py:78 | the first position of a character: it holds the character and none occurs earlier; absent exactly when the character does not occur |
| Strings.LastIndexOfChar | scripts/resume_parser.py:78 | the last position of a character: it holds the character and none occurs later; absent exactly when the character does not occur |
| Strings.Contains | scripts/task_planner.py:47 | Python's substring test `w in t` holds exactly when `w` occurs at some position of `t` |
| Numerals.Digits | scripts/task_planner.py:108 | the decimal numeral of a natural number has no leading zero and denotes that number |
| Numerals.IntToString | scripts/resume_parser.py:93 | `str()` of an integer starts with `-` exactly when the integer is negative; the rest is the canonical numeral of its magnitude: digits only, no leading zero unless it is `0`, denoting that magnitude |
| Numerals.CanonicalDigits | scripts/resume_parser.py:93 | a number has only one canonical numeral, so the text `str()` writes is the only one meeting its contract |
| Numerals.LeadingNonzero | scripts/resume_parser.py:93 | a numeral whose first digit is not `0` denotes a positive number |
| Numerals.ParseInt | scripts/task_planner.py:108 | whatever `int()` accepts is, once the whitespace `int()` skips is removed, a numeral: it ends in a digit and starts with a digit or a sign |
| Numerals.IntStrip | scripts/task_planner.py:108 | the text `int()` looks at has none of the whitespace it skips at either end, and is no longer than the input |
| Numerals.IntStripAgrees | scripts/task_planner.py:108 | on a text without the separators U+001C–U+001F, `int()`'s whitespace skipping removes exactly what `str.strip()` removes |
| Numerals.IntStripAfterSpaces | scripts/task_planner.py:108 | leading whitespace that `int()` skips does not change the text it reads |
| Numerals.IntStripBeforeSpaces | scripts/task_planner.py:108 | trailing whitespace that `int()` skips does not change the text it reads |
| Numerals.IntStripFramed | scripts/task_planner.py:108 | whitespace that `int()` skips on both sides does not change the text it reads |
| Numerals.IntStripAllSpace | scripts/task_planner.py:108 | a text of only such whitespace leaves nothing to read |
| Numerals.IntStripOfSpace | scripts/task_planner.py:108 | from a text of `str.isspace()` characters, what `int()` reads is again such characters |
| Numerals.ParseDigitGroups | scripts/task_planner.py:108 | the digits after the sign: a plain run of digits reads as its value, and anything accepted starts and ends with a digit |
| Numerals.ParseDigitGroupsMeaning | scripts/task_planner.py:108 | the digits after the sign are accepted exactly when they are digits with single underscores between two digits, and then read as the number the digits denote once the underscores are removed |
| Numerals.ParseIntMeaning | scripts/task_planner.py:108 | `int()` of a string: skip the whitespace `int()` skips at both ends (not U+001C–U+001F) and take off one `-` or `+`; the rest must be digits with single underscores between digits, and its digits give the value, negated after `-`; anything else is rejected |
| Numerals.ParseUnderscoreJoin | scripts/task_planner.py:108 | one underscore between two runs of digits is only a separator: `int(a + "_" + b)` is the number `a + b` denotes |
| Numerals.ParseLeadingUnderscore | scripts/task_planner.py:108 | `int()` rejects digits preceded by an underscore (`_1`) |
| Numerals.ParseTrailingUnderscore | scripts/task_planner.py:108 | `int()` rejects digits followed by an underscore (`1_`) |
| Numerals.ParseDoubleUnderscore | scripts/task_planner.py:108 | `int()` rejects two underscores in a row (`1__0`) |
| Numerals.ParseMinusDigits | scripts/task_planner.py:108 | a minus sign before a run of digits reads as the negated value of the digits |
| Numerals.ParseIntToString | scripts/task_planner.py:108 | `int(str(i)) == i` for every integer, negative ones included |
| Numerals.ParseNegative | scripts/task_planner.py:108 | `int("-" + digits)` is the negated value |
| Numerals.ParseUnsigned | scripts/task_planner.py:108 | `int()` of a digit-group numeral with whitespace `int()` skips before and after it is the numeral's value |
| Numerals.ParseSigned | scripts/task_planner.py:108 | `int()` of a `-` or `+` sign followed by a digit-group numeral, with whitespace `int()` skips before and after, is the negated value for `-` and the value for `+` |
| Numerals.ParseBlank | scripts/task_planner.py:108 | `int()` rejects an empty or all-whitespace string, U+001C–U+001F included |
| Numerals.ParseSeparatorBefore | scripts/task_planner.py:108 | one of the separators U+001C–U+001F before a numeral makes `int()` fail, although `str.isspace()` counts it as whitespace |
| Numerals.Pad | scripts/task_planner.py:108 | a zero-padded field has exactly the requested width, only digits, and denotes the number printed |
| Numerals.PadValueOf | scripts/task_planner.py:105 | every digit field is the zero-padded form of its own value, so padding and reading are inverse |
| JsonValues.Lookup | scripts/resume_parser.py:98 | looking a key up in a decoded object finds nothing exactly when the key is absent |
| JsonValues.LookupFirst | scripts/resume_parser.py:98 | the first member carrying a key is the one a lookup returns |
| JsonValues.Get | scripts/resume_parser.py:98-103 | `dict.get(key, default)` gives the default exactly when the key is absent and the stored value otherwise |
| JsonValues.SetKey | scripts/task_planner.py:108 | item assignment: the key maps to the new value; every other key is unchanged; the key list stays the same or gains the key at the end |
| JsonValues.Str | scripts/resume_parser.py:90-93 | `str()` of a string is the string itself; of null `None`; of a boolean `True` or `False`; of an integer its `str()` numeral, which `int()` reads back as that integer; of anything else a non-empty text |
| JsonValues.Repr | scripts/resume_parser.py:90-93 | the nested printing of a value is non-empty; it is `None` for null, `True` or `False` for a boolean, the `str()` numeral for an integer (read back by `int()` as that integer), and is bracketed `[…]` for a list and braced `{…}` for an object |
| SpanLocator.FindSpan | scripts/resume_parser.py:78 | the search finds a span exactly when some opener precedes some closer; the span found starts at the leftmost opener and is the longest from there (greedy) |
| SpanLocator.SpanExistsIff | scripts/task_planner.py:98 | a span exists exactly when the opener occurs and a closer occurs after its first occurrence |
| SpanLocator.EmbeddedSpanRecovered | scripts/resume_parser.py:78 | with no opener before it and no closer after it, an embedded delimited text is exactly the span found, whatever it nests |
| SpanLocator.Extract | scripts/resume_parser.py:76-82 | no span gives the "no match" error exactly when no opener precedes a closer; a result is the decoding of the leftmost-longest span; a decoding failure reports that span |
| SpanLocator.ExtractObject | scripts/resume_parser.py:76-82 | the object search on the résumé reply: "no match" exactly when no `{` precedes a `}`; for the leftmost-longest span, the decoded value when the decoder accepts it and "malformed" carrying that span when it does not |
| SpanLocator.ExtractArray | scripts/task_planner.py:97-102 | the list search on the task reply: "no match" exactly when no `[` precedes a `]`; for the leftmost-longest span, the decoded value when the decoder accepts it and "malformed" carrying that span when it does not |
| Flattener.FlattenSection | scripts/resume_parser.py:85-86 | anything that is not a list flattens to the empty string |
| Flattener.RenderMember | scripts/resume_parser.py:90 | one key of a mapping entry renders as the key, then `: `, then `str()` of its value |
| Flattener.RenderEntry | scripts/resume_parser.py:89-93 | a string entry renders as itself and any other non-mapping as its `str()`; an empty mapping renders empty and a one-key mapping as that key's `key: value` |
| Flattener.FlattenEmpty | scripts/resume_parser.py:84-94 | an empty list flattens to the empty string |
| Flattener.FlattenSingle | scripts/resume_parser.py:88-93 | a one-entry list flattens to that entry's rendering, with no separator |
| Flattener.FlattenAppend | scripts/resume_parser.py:94 | flattening two non-empty lists is flattening each and joining the two with `" \| "` |
| Flattener.MappingSingle | scripts/resume_parser.py:90 | a one-key mapping entry renders as `key: str(value)` |
| Flattener.MappingAppend | scripts/resume_parser.py:90 | a mapping entry's pairs are joined with `", "` in key order |
| Flattener.MappingPair | scripts/resume_parser.py:88-94 | a list holding one two-key mapping flattens to `k1: v1, k2: v2` |
| Flattener.MappingExample | scripts/resume_parser.py:89-91 | `[{"a": "1", "b": "2"}]` flattens to `a: 1, b: 2` |
| Flattener.ListExample | scripts/resume_parser.py:92-94 | `["x", "y"]` flattens to `x \| y` |
| Flattener.FlattenWritesNoQuote | scripts/resume_parser.py:88-94 | flattening string entries and string-valued mappings that hold no double quote writes no double quote: `k: v` adds none |
| ResumeRecord.JoinableItems | scripts/resume_parser.py:101 | what `", ".join` iterates over: a list qualifies exactly when every item is a string; a string gives its characters; an object gives its keys; a scalar fails |
| ResumeRecord.JoinSkills | scripts/resume_parser.py:101 | the skills cell exists exactly when the value is joinable, and is then the `", "`-join of its items; a missing list gives the empty cell |
| ResumeRecord.FlatRecord.Row | scripts/resume_parser.py:97-106 | the dict handed to the CSV writer has exactly the keys name, email, phone, skills, education, work_experience, in that order, which become the header |
| ResumeRecord.BuildFlatRecord | scripts/resume_parser.py:97-104 | a record is built exactly when the reply is an object whose skills are joinable; a non-object fails as "not an object"; each field is the `get` of its key with the source's default, and education and work experience are flattened |
| ResumeRecord.MissingFieldsEmpty | scripts/resume_parser.py:97-104 | a missing key never fails: missing skills give an empty skills cell, and every other missing field is empty |
| ResumeRecord.CsvRow | scripts/resume_parser.py:105-108 | the written row has exactly the six columns of the flat record |
| ResumeRecord.CsvCell | scripts/resume_parser.py:108 | the CSV cell of a value: empty for null, the text itself for a string, `True` or `False` for a boolean, and the integer's `str()` numeral, which `int()` reads back as the integer |
| ResumeRecord.CsvRowText | scripts/resume_parser.py:105-108 | every one of the six columns is present: the name, email and phone cells hold the CSV writer's text for the record's values, and the skills, education and work-experience cells hold exactly the record's texts |
| ResumeParser.FormatOf | scripts/resume_parser.py:27-33 | PDF exactly for a `.pdf` suffix, DOCX exactly for a `.docx` suffix without a `.pdf` one, unsupported exactly when neither suffix is present (case-sensitive) |
| ResumeParser.PdfSuffix | scripts/resume_parser.py:28-29 | every `stem.pdf` is read as a PDF |
| ResumeParser.DocxSuffix | scripts/resume_parser.py:30-31 | every `stem.docx` is read as a DOCX document |
| ResumeParser.ExtractPdf | scripts/resume_parser.py:35-40 | the loop's text is the concatenation of all pages in order, stripped |
| ResumeParser.ExtractText | scripts/resume_parser.py:27-43 | "unsupported format" exactly when the suffix is neither; otherwise the stripped PDF or DOCX text, chosen by suffix |
| ResumeParser.RunResumeParser | scripts/resume_parser.py:110-121 | an unsupported file fails with "unsupported format"; otherwise a reply without a decodable object fails with that search error, and a decoded object gives its flat record, or that record's error |
| ResumeParser.UnsupportedBeforeModel | scripts/resume_parser.py:110-115 | an unsupported file fails the same way whatever the model and the decoder would answer, so the model is never needed |
| ResumeParser.OnlyStrippedTextMatters | scripts/resume_parser.py:42-43 | whitespace before and after a DOCX document's text does not change the run |
| ResumeParser.RecordFromEmbeddedReply | scripts/resume_parser.py:110-118 | a reply holding an object with no `{` before it and no `}` after it yields that object's record, or that object's record error |
| Skills.CleanPieces | scripts/task_planner.py:32 | the kept pieces are no more than the pieces given, and every kept skill is non-empty, stripped and comma-free |
| Skills.ParseSkills | scripts/task_planner.py:32 | every skill read back is non-empty, stripped and comma-free |
| Skills.CleanPiecesAppend | scripts/task_planner.py:32 | filtering the pieces of two lists is filtering each list |
| Skills.ParseSkillsAppend | scripts/task_planner.py:32 | reading `a,b` is reading `a` followed by reading `b` |
| Skills.ParseSkillsClean | scripts/task_planner.py:32 | a single clean skill reads back as itself |
| Skills.CleanPiecesOne | scripts/task_planner.py:32 | one piece contributes its stripped text, or nothing when the stripped text is empty |
| Skills.ParseSkillsPadded | scripts/task_planner.py:32 | a clean skill with whitespace on either side reads back as the skill alone |
| Skills.ParseSkillsSpaceBeforeComma | scripts/task_planner.py:32 | `x ,y` reads back as the two skills `x` and `y`, as `"Go ,SQL"` gives `Go` and `SQL` |
| Skills.ParseSkillsBlank | scripts/task_planner.py:32 | an empty or all-whitespace cell gives no skills |
| Skills.SkillsRoundTrip | scripts/resume_parser.py:101 | skills joined with `", "` by the parser are read back by the planner as exactly the same list, provided each is non-empty, stripped and comma-free |
| JobTitle.SkipSpaces | scripts/task_planner.py:43 | `\s*` stops at the first non-whitespace character, having skipped only whitespace |
| JobTitle.NextQuote | scripts/task_planner.py:43 | `[^"]+` stops at the first double quote, having skipped no quote |
| JobTitle.MatchAt | scripts/task_planner.py:43 | a match reported at a position gives the places of its parts in order within the text: the key, the colon, the opening quote, a non-empty title and the closing quote (which characters stand there is `JobTitle.MatchAtSound`) |
| JobTitle.MatchAtSound | scripts/task_planner.py:43 | a match reported at a position is an instance of the pattern: key (case-insensitive), spaces, colon, spaces, quote, a non-empty quote-free title, quote |
| JobTitle.MatchAtComplete | scripts/task_planner.py:43 | every instance of the pattern at a position is the match reported there |
| JobTitle.FindMatch | scripts/task_planner.py:43 | the search returns a matching position with no match before it, or reports that no position matches |
| JobTitle.SearchFindsLeftmost | scripts/task_planner.py:43 | the search returns the leftmost matching position |
| JobTitle.ExtractJobTitle | scripts/task_planner.py:41-53 | the guessed title is never empty |
| JobTitle.TitleFromLeftmostMatch | scripts/task_planner.py:43-45 | with a pattern instance and none further left, the title is exactly that instance's quoted text |
| JobTitle.TitleWithoutMatch | scripts/task_planner.py:46-53 | without a pattern instance, the title is the first of "Engineer", "Intern", "Manager" that occurs (case-sensitive), else "New Hire" |
| JobTitle.QuoteFreeTitle | scripts/task_planner.py:43-53 | text without a double quote never matches the position pattern, so its title comes from the keywords or the fallback |
| Calendar.YearOf | scripts/task_planner.py:108 | every day number falls within exactly the year found |
| Calendar.OrdinalInYear | scripts/task_planner.py:108 | a date's day number, counting 0001-01-01 as day 1, lies after all days of the earlier years and within the days of its own year |
| Calendar.FromOrdinal | scripts/task_planner.py:108 | a positive day number converts to a calendar date with that day number |
| Calendar.OrdinalInjective | scripts/task_planner.py:108 | two calendar dates with the same day number are the same date |
| Calendar.FromOrdinalOfOrdinal | scripts/task_planner.py:108 | converting a date to its day number and back gives the date |
| Calendar.ValidOrdinalRange | scripts/task_planner.py:108 | a calendar date lies in years 1–9999 exactly when its day number is at most that of 9999-12-31 |
| Calendar.DateOfOrdinal | scripts/task_planner.py:108 | a date exists for a day number exactly within 1 … the day number of 9999-12-31, and it carries that day number |
| Calendar.AddDays | scripts/task_planner.py:108 | `date + timedelta(days=n)` succeeds exactly when the day number stays in range, and then moves the day number by exactly n |
| Calendar.AddDaysErrIffNoDate | scripts/task_planner.py:108 | the addition overflows exactly when the calendar date n days away lies outside years 1–9999 |
| Calendar.NextDayOrdinal | scripts/task_planner.py:108 | the next calendar day, with month and year roll-over, has the next day number |
| Calendar.AddZero | scripts/task_planner.py:108 | adding zero days gives the same date |
| Calendar.AddOne | scripts/task_planner.py:108 | adding one day gives the next calendar day |
| Calendar.AddCompose | scripts/task_planner.py:108 | adding n then m days is adding n + m days |
| Calendar.AddInverse | scripts/task_planner.py:108 | adding n then -n days gives the starting date |
| Calendar.StepDays | scripts/task_planner.py:108 | stepping n calendar days forward moves the day number by n |
| Calendar.AddDaysCountsDays | scripts/task_planner.py:108 | a non-negative addition is n single-day steps through the calendar |
| Calendar.AddDaysTo | scripts/task_planner.py:108 | an in-range date whose day number is n more than the start is the result of adding n days |
| Calendar.ShiftExamples | scripts/task_planner.py:108 | 2024-01-01 plus 5 days is 2024-01-06, and plus -1 day is 2023-12-31 |
| Calendar.FormatDate | scripts/task_planner.py:108 | the printed date is always ten characters |
| Calendar.ParseIsoDate | scripts/task_planner.py:105 | a parsed start date is a real calendar date in years 1–9999 |
| Calendar.ReadFormatted | scripts/task_planner.py:108 | the printed fields read back as the numbers printed |
| Calendar.ParseFormat | scripts/task_planner.py:105-108 | parsing a printed date gives the date back |
| Calendar.FormatRead | scripts/task_planner.py:105 | every text the field reader accepts is the printing of the numbers read |
| Calendar.FormatParse | scripts/task_planner.py:105 | every accepted start-date text is the printing of the date parsed, so parsing loses nothing |
| TaskPlan.ReadResume | scripts/task_planner.py:23-39 | an empty CSV fails exactly as "no row"; otherwise each field is the first row's cell (empty when absent), the skills are the cleaned pieces of the skills cell, and the title is the one guessed from the work-experience cell, never empty |
| TaskPlan.SkillsSurviveHandOff | scripts/task_planner.py:32 | skills the parser writes from a list of clean strings are read back by the planner as the same list |
| TaskPlan.TitleFromKeywordsOnly | scripts/task_planner.py:38 | for work experience the parser flattened from quote-free entries, the title the planner reads back is decided by the keywords alone |
| TaskPlan.PositionBecomesKeyword | scripts/task_planner.py:41-53 | a résumé whose experience is `{"position": title}` is written as `position: title`, and the planner's title is one of Engineer, Intern, Manager, New Hire, never the position itself |
| TaskPlan.ToInt | scripts/task_planner.py:108 | `int()` keeps an integer, turns a boolean into 1 or 0, and fails for null, a list or an object |
| TaskPlan.ToIntOfText | scripts/task_planner.py:108 | a printed integer, even behind whitespace that `int()` skips, converts to that integer |
| TaskPlan.DueOffset | scripts/task_planner.py:107-108 | a task without `due_in_days` has offset 0; otherwise the offset is `int()` of the stored value |
| TaskPlan.TaskDue | scripts/task_planner.py:107-108 | a due text is produced only for a dict task whose offset `int()` accepts, and it parses back to the date that adding the offset to the start gives; a failure carries the task's position |
| TaskPlan.ShiftedText | scripts/task_planner.py:108 | the start date shifted by n days, when in range, is printed as a text that parses back to exactly that date; otherwise the overflow error |
| TaskPlan.WithDueDate | scripts/task_planner.py:108 | the task gets `due_date` set to the text; every other key keeps its value; the key order is unchanged, or gains `due_date` at the end |
| TaskPlan.TaskDueMeaning | scripts/task_planner.py:107-108 | a task's due date is printed exactly when it exists, and parses back to it; non-objects and non-numeric offsets fail as such |
| TaskPlan.DefaultDueIsStart | scripts/task_planner.py:107 | a task without `due_in_days` is due on the start date |
| TaskPlan.DueDateCountsDays | scripts/task_planner.py:108 | a due date n days ahead is n calendar steps after the start |
| TaskPlan.TaskDueOfShift | scripts/task_planner.py:107-108 | when a valid date lies exactly the offset's number of days from the start, the due text is that date printed `%Y-%m-%d` |
| TaskPlan.NegativeOffsetApplied | scripts/task_planner.py:108 | a negative offset is not rejected: the due date lies that many days before the start |
| TaskPlan.Collect | scripts/task_planner.py:106-108 | the loop succeeds exactly when every task does; it then yields every due text in order; otherwise it stops at the first failing task |
| TaskPlan.CollectedDues | scripts/task_planner.py:106-108 | the due texts of a task list are collected exactly when every task resolves, one per task in order; otherwise the error is the first failing task's |
| TaskPlan.InjectDueDates | scripts/task_planner.py:104-108 | every task gains its own due date in order when all succeed; otherwise the error is the first failing task's |
| TaskPlan.OnlyDueDateAdded | scripts/task_planner.py:108 | injecting changes no other key of a task, and adds `due_date` at the end unless it was already there |
| TaskPlan.TaskRow | scripts/task_planner.py:110-115 | a row has the six columns in order, each holding the task's value or empty when the key is absent |
| TaskPlan.RowWithDueDate | scripts/task_planner.py:108-115 | setting `due_date` changes the fourth cell only |
| TaskPlan.ResolvedRow | scripts/task_planner.py:104-115 | each written row is the original task's row with the due date in the fourth cell |
| TaskPlan.PlanRows | scripts/task_planner.py:104-115 | rows are written exactly when every due date resolves; there is one row per task; each row's due cell parses back to that task's due date, and every other cell is the task's own cell for that column |
| TaskPlan.RunTaskPlanner | scripts/task_planner.py:117-129 | an empty CSV fails as "no row"; otherwise a reply without a decodable list fails with that search error, then a bad start date fails, then a non-list fails, and a list gives exactly the task rows for the parsed start date, or the first failing task's error |
| TaskPlan.ReplyCheckedBeforeStartDate | scripts/task_planner.py:117-126 | an unusable model reply is reported before the start date is looked at |

`TaskPlan.Cell` (`data.get(key, "")` at scripts/task_planner.py:29-34) has no contract of its own: `TaskPlan.ReadResume` states what each field read through it holds.

## Left out

- The network call to the model. It is a parameter (`ask`), and so is the prompt text built around the résumé.
- Environment loading, API keys and the model's name. None of them affects the computation.
- PDF and DOCX reading. The PDF's page texts and the DOCX text are parameters.
- JSON decoding (`json.loads`). It is the parameter `decode`. Floating-point JSON numbers are not part of the value model.
- Duplicate keys in a decoded object. An object is an ordered member list, and lookup takes the first member with the key. A decoder standing for `json.loads` lists each key once.
- The CSV writer and reader. Their mechanics are not modelled: quoting, line endings, headers, encodings, a short row giving `None`, a row with surplus fields.
  - A row is a map from column to text.
  - The first data row is the first row of the input.
- TaskPlan.PlanRows: a task holding a key outside the six columns makes `csv.DictWriter` raise `ValueError` after earlier rows were already written. The model writes the six columns and ignores the other keys.
- TaskPlan.ReadResume: `DictReader` gives `None` for a cell missing from a short row. A missing skills cell then makes `split` raise `AttributeError` (`scripts/task_planner.py:32`), and a missing work-experience cell makes `re.search` raise `TypeError` (`scripts/task_planner.py:43`). The model's row gives such a cell no entry, and so reads it as `""` in both cases.
- JsonValues.Repr: Python's `repr` of a nested string picks its quote character and escapes characters. The model always quotes with `'` and does not escape. This affects every text that prints a list or dict: nested values inside flattened sections, a list- or dict-valued name, email or phone written through `ResumeRecord.CsvCell`, and any list- or dict-valued task field written through `TaskPlan.TaskRow`.
- Numerals.ParseInt: Python's `int()` also accepts non-ASCII Unicode decimal digits. The model accepts only `0`–`9`.
- Numerals.ParseInt: from Python 3.11 on, `int()` rejects a string of more than 4300 digits with `ValueError`. The model has no such limit. It reads the number, and the due date then fails as `DueDateOutOfRange` (the OverflowError) instead of `BadOffset` (the ValueError).
- Calendar.ParseIsoDate: `strptime("%Y-%m-%d")` is more lenient than the model. It accepts one-digit months and days, and a day written as a space and one digit. Its `\d` also takes non-ASCII digits. The model accepts exactly `dddd-dd-dd`, and so accepts every date that `strftime` prints.
- Calendar.FormatDate: on some C libraries `%Y` prints years below 1000 without zero padding. The model always prints four digits.
- The `timedelta` limit of ±999 999 999 days. Any offset beyond it already leaves years 1–9999, and that case is modelled as the overflow error.
- The in-place mutation of the task dictionaries before a failure. It is not observable, because the run aborts.
- Timestamps in output file names, `print` output and the returned file name. They are I/O.
- The repository's tests.

=== FILE: calendar.dfy ===
/** Calendar arithmetic of Python's datetime, used to resolve due dates:
    dates of the proleptic Gregorian calendar in years 1 through 9999,
    numbered by ordinal (0001-01-01 is day 1), and `%Y-%m-%d` text. */
module Calendar {
  import opened Outcomes
  import opened Numerals

  const MaxYear := 9999

  datatype Date = Date(year: int, month: int, day: int)

  /** Adding days left the years datetime can represent (OverflowError). */
  datatype DateError = DateOutOfRange

  predicate IsLeap(y: int) {
    y % 4 == 0 && (y % 100 != 0 || y % 400 == 0)
  }

  function DaysInYear(y: int): int {
    if IsLeap(y) then 366 else 365
  }

  function DaysInMonth(y: int, m: int): int
    requires 1 <= m <= 12
  {
    if m == 2 then (if IsLeap(y) then 29 else 28)
    else if m == 4 || m == 6 || m == 9 || m == 11 then 30
    else 31
  }

  /** A day of the proleptic Gregorian calendar from year 1 on. */
  predicate IsCalendarDate(d: Date) {
    d.year >= 1 && 1 <= d.month <= 12 && 1 <= d.day <= DaysInMonth(d.year, d.month)
  }

  /** A date datetime can hold. */
  predicate Valid(d: Date) {
    IsCalendarDate(d) && d.year <= MaxYear
  }

  /** Days in the years before `y`. */
  function DaysBeforeYear(y: int): int
    requires y >= 1
  {
    var k := y - 1;
    365 * k + k / 4 - k / 100 + k / 400
  }

  const CumulativeDays: seq<int> := [0, 31, 59, 90, 120, 151, 181, 212, 243, 273, 304, 334, 365]

  /** Days in year `y` before month `m`; month 13 stands for the year's end. */
  function DaysBeforeMonth(y: int, m: int): int
    requires 1 <= m <= 13
  {
    CumulativeDays[m - 1] + (if m > 2 && IsLeap(y) then 1 else 0)
  }

  /** The day number of a date: 0001-01-01 is 1 (date.toordinal()). */
  function Ordinal(d: Date): int
    requires IsCalendarDate(d)
  {
    DaysBeforeYear(d.year) + DaysBeforeMonth(d.year, d.month) + d.day
  }

  lemma MonthStep(y: int, m: int)
    requires 1 <= m <= 12
    ensures DaysBeforeMonth(y, m + 1) == DaysBeforeMonth(y, m) + DaysInMonth(y, m)
  {
  }

  lemma YearLength(y: int)
    ensures DaysBeforeMonth(y, 13) == DaysInYear(y)
  {
  }

  lemma {:induction false} MonthsMonotone(y: int, a: int, b: int)
    requires 1 <= a <= b <= 13
    ensures DaysBeforeMonth(y, a) <= DaysBeforeMonth(y, b)
    decreases b - a
  {
    if a < b {
      MonthStep(y, a);
      MonthsMonotone(y, a + 1, b);
    }
  }

  lemma YearStep(y: int)
    requires y >= 1
    ensures DaysBeforeYear(y + 1) == DaysBeforeYear(y) + DaysInYear(y)
  {
    var k := y - 1;
    assert y / 4 - k / 4 == (if y % 4 == 0 then 1 else 0);
    assert y / 100 - k / 100 == (if y % 100 == 0 then 1 else 0);
    assert y / 400 - k / 400 == (if y % 400 == 0 then 1 else 0);
  }

  lemma {:induction false} YearsMonotone(a: int, b: int)
    requires 1 <= a <= b
    ensures DaysBeforeYear(a) + 365 * (b - a) <= DaysBeforeYear(b)
    decreases b - a
  {
    if a < b {
      YearStep(a);
      YearsMonotone(a + 1, b);
    }
  }

  /** Days before a year written as whole 400-, 100-, 4- and 1-year runs. */
  lemma CycleDays(q: nat, c: int, e: int, f: int)
    requires 0 <= c <= 3 && 0 <= e <= 24 && 0 <= f <= 3
    ensures DaysBeforeYear(400 * q + 100 * c + 4 * e + f + 1) == 146097 * q + 36524 * c + 1461 * e + 365 * f
  {
    var k := 400 * q + 100 * c + 4 * e + f;
    assert k / 4 == 100 * q + 25 * c + e;
    assert k / 100 == 4 * q + c;
    assert k / 400 == q;
  }

  /** The year-finding step of `_ord2ymd`, given the quotients and remainder
      of its divmod chain: `n0` days are complete before day `n0 + 1`. */
  lemma YearSearch(n0: nat, q: nat, c: int, e: int, f: int, rem: int)
    requires 0 <= c <= 4 && 0 <= e <= 24 && 0 <= f <= 4 && 0 <= rem < 365
    requires n0 == 146097 * q + 36524 * c + 1461 * e + 365 * f + rem
    requires 1461 * e + 365 * f + rem < 36524 || c == 4
    requires c == 4 ==> e == 0 && f == 0 && rem == 0
    requires f == 4 ==> rem == 0
    ensures var y := 400 * q + 100 * c + 4 * e + f + (if c == 4 || f == 4 then 0 else 1);
            y >= 1 && DaysBeforeYear(y) <= n0 < DaysBeforeYear(y) + DaysInYear(y)
  {
    if c == 4 {
      LastDayOfCycle(q);
    } else if f == 4 {
      LastDayOfFourYears(q, c, e);
    } else {
      CycleDays(q, c, e, f);
    }
  }

  /** Day 146097 of a 400-year cycle closes its leap year. */
  lemma LastDayOfCycle(q: nat)
    ensures var y := 400 * q + 400;
            DaysBeforeYear(y) == 146097 * q + 146096 - 365 && IsLeap(y)
  {
    CycleDays(q, 3, 24, 3);
    assert (400 * q + 400) % 400 == 0;
  }

  /** Day 1461 of a four-year run closes its leap year. */
  lemma LastDayOfFourYears(q: nat, c: int, e: int)
    requires 0 <= c <= 3 && 0 <= e <= 23
    ensures var y := 400 * q + 100 * c + 4 * e + 4;
            DaysBeforeYear(y) == 146097 * q + 36524 * c + 1461 * e + 1095 && IsLeap(y)
  {
    CycleDays(q, c, e, 3);
    FourthYearLeap(4 * q + c, e);
  }

  /** The last year of a four-year run inside a century is a leap year. */
  lemma FourthYearLeap(h: nat, e: int)
    requires 0 <= e <= 23
    ensures IsLeap(100 * h + 4 * e + 4)
  {
    var y := 100 * h + 4 * e + 4;
    assert y % 4 == 0 by { assert y == 4 * (25 * h + e + 1); }
    assert y % 100 == 4 * e + 4 by { assert y == 100 * h + (4 * e + 4) && 0 < 4 * e + 4 < 100; }
  }

  /** The year holding ordinal `n`, found as `_ord2ymd` does: by peeling off
      400-year, 100-year, 4-year and 1-year runs. */
  function YearOf(n: int): (y: int)
    requires n >= 1
    ensures y >= 1 && DaysBeforeYear(y) < n <= DaysBeforeYear(y) + DaysInYear(y)
  {
    var n0 := n - 1;
    var n400 := n0 / 146097;
    var n100 := (n0 % 146097) / 36524;
    var r100 := (n0 % 146097) % 36524;
    var n4 := r100 / 1461;
    var n1 := (r100 % 1461) / 365;
    var rem := (r100 % 1461) % 365;
    YearSearch(n0, n400, n100, n4, n1, rem);
    if n1 == 4 || n100 == 4 then 400 * n400 + 100 * n100 + 4 * n4 + n1
    else 400 * n400 + 100 * n100 + 4 * n4 + n1 + 1
  }

  /** The month holding day-of-year `doy`, scanning from month `m`. */
  function MonthFrom(y: int, doy: int, m: int): (r: int)
    requires 1 <= m <= 12 && DaysBeforeMonth(y, m) < doy <= DaysBeforeMonth(y, 13)
    ensures m <= r <= 12 && DaysBeforeMonth(y, r) < doy <= DaysBeforeMonth(y, r + 1)
    decreases 12 - m
  {
    if doy <= DaysBeforeMonth(y, m + 1) then m else MonthFrom(y, doy, m + 1)
  }

  /** The date with ordinal `n` (date.fromordinal()). */
  function FromOrdinal(n: int): (d: Date)
    requires n >= 1
    ensures IsCalendarDate(d) && Ordinal(d) == n
  {
    var y := YearOf(n);
    var doy := n - DaysBeforeYear(y);
    YearLength(y);
    var m := MonthFrom(y, doy, 1);
    MonthStep(y, m);
    Date(y, m, doy - DaysBeforeMonth(y, m))
  }

  /** Where an ordinal sits within its year. */
  lemma OrdinalInYear(d: Date)
    requires IsCalendarDate(d)
    ensures DaysBeforeYear(d.year) < Ordinal(d) <= DaysBeforeYear(d.year) + DaysInYear(d.year)
  {
    MonthStep(d.year, d.month);
    MonthsMonotone(d.year, d.month + 1, 13);
    YearLength(d.year);
  }

  /** Ordinals of later years are larger. */
  lemma YearsOrdered(a: Date, b: Date)
    requires IsCalendarDate(a) && IsCalendarDate(b) && a.year < b.year
    ensures Ordinal(a) < Ordinal(b)
  {
    OrdinalInYear(a);
    OrdinalInYear(b);
    YearStep(a.year);
    YearsMonotone(a.year + 1, b.year);
  }

  /** Within a year, ordinals of later months are larger. */
  lemma MonthsOrdered(a: Date, b: Date)
    requires IsCalendarDate(a) && IsCalendarDate(b) && a.year == b.year && a.month < b.month
    ensures Ordinal(a) < Ordinal(b)
  {
    MonthStep(a.year, a.month);
    MonthsMonotone(a.year, a.month + 1, b.month);
  }

  /** Different dates have different ordinals. */
  lemma OrdinalInjective(a: Date, b: Date)
    requires IsCalendarDate(a) && IsCalendarDate(b) && Ordinal(a) == Ordinal(b)
    ensures a == b
  {
    if a.year < b.year {
      YearsOrdered(a, b);
    } else if b.year < a.year {
      YearsOrdered(b, a);
    } else if a.month < b.month {
      MonthsOrdered(a, b);
    } else if b.month < a.month {
      MonthsOrdered(b, a);
    }
  }

  /** fromordinal undoes toordinal. */
  lemma FromOrdinalOfOrdinal(d: Date)
    requires IsCalendarDate(d)
    ensures FromOrdinal(Ordinal(d)) == d
  {
    OrdinalInjective(FromOrdinal(Ordinal(d)), d);
  }

  /** The last day datetime can represent, 9999-12-31. */
  const LastDay := Date(MaxYear, 12, 31)

  const MaxOrdinal := 3652059

  lemma LastDayOrdinal()
    ensures Valid(LastDay) && Ordinal(LastDay) == MaxOrdinal
    ensures DaysBeforeYear(MaxYear + 1) == MaxOrdinal
  {
  }

  /** Exactly the ordinals 1 ..= MaxOrdinal belong to representable dates. */
  lemma ValidOrdinalRange(d: Date)
    requires IsCalendarDate(d)
    ensures Valid(d) <==> Ordinal(d) <= MaxOrdinal
  {
    LastDayOrdinal();
    OrdinalInYear(d);
    if d.year > MaxYear {
      YearsMonotone(MaxYear + 1, d.year);
    } else {
      YearStep(d.year);
      YearsMonotone(d.year + 1, MaxYear + 1);
    }
  }

  /** The date with ordinal `o`, when datetime can represent it. */
  function DateOfOrdinal(o: int): (r: Result<Date, DateError>)
    ensures r.Ok? ==> Valid(r.value) && Ordinal(r.value) == o
    ensures r.Ok? <==> 1 <= o <= MaxOrdinal
  {
    if 1 <= o <= MaxOrdinal then
      var e := FromOrdinal(o);
      ValidOrdinalRange(e);
      Ok(e)
    else Err(DateOutOfRange)
  }

  /** `start_dt + timedelta(days=n)`: the date `n` days after `d` (before it
      when `n` is negative), or OverflowError outside years 1..9999. */
  function AddDays(d: Date, n: int): (r: Result<Date, DateError>)
    requires Valid(d)
    ensures r.Ok? ==> Valid(r.value) && Ordinal(r.value) == Ordinal(d) + n
    ensures r.Ok? <==> 1 <= Ordinal(d) + n <= MaxOrdinal
  {
    DateOfOrdinal(Ordinal(d) + n)
  }

  /** The error is raised exactly when no representable date lies `n` days
      from `d`. */
  lemma AddDaysErrIffNoDate(d: Date, n: int, e: Date)
    requires Valid(d) && IsCalendarDate(e) && Ordinal(e) == Ordinal(d) + n
    ensures AddDays(d, n).Err? <==> !Valid(e)
  {
    ValidOrdinalRange(e);
    OrdinalInYear(e);
    if AddDays(d, n).Ok? {
      OrdinalInjective(AddDays(d, n).value, e);
    }
  }

  /** The following calendar day, by the rules of month and year lengths. */
  function NextDay(d: Date): Date
    requires IsCalendarDate(d)
  {
    if d.day < DaysInMonth(d.year, d.month) then Date(d.year, d.month, d.day + 1)
    else if d.month < 12 then Date(d.year, d.month + 1, 1)
    else Date(d.year + 1, 1, 1)
  }

  lemma NextDayOrdinal(d: Date)
    requires IsCalendarDate(d)
    ensures IsCalendarDate(NextDay(d)) && Ordinal(NextDay(d)) == Ordinal(d) + 1
  {
    MonthStep(d.year, d.month);
    if d.day == DaysInMonth(d.year, d.month) && d.month == 12 {
      YearStep(d.year);
      YearLength(d.year);
    }
  }

  /** An offset of 0 gives the start date itself. */
  lemma AddZero(d: Date)
    requires Valid(d)
    ensures AddDays(d, 0) == Ok(d)
  {
    OrdinalInYear(d);
    ValidOrdinalRange(d);
    OrdinalInjective(AddDays(d, 0).value, d);
  }

  /** One day later is the next calendar day. */
  lemma AddOne(d: Date)
    requires Valid(d) && d != LastDay
    ensures AddDays(d, 1) == Ok(NextDay(d))
  {
    OrdinalInYear(d);
    ValidOrdinalRange(d);
    LastDayOrdinal();
    if Ordinal(d) == MaxOrdinal {
      OrdinalInjective(d, LastDay);
    }
    NextDayOrdinal(d);
    OrdinalInjective(AddDays(d, 1).value, NextDay(d));
  }

  /** Offsets add up: n days then m days is n + m days. */
  lemma AddCompose(d: Date, n: int, m: int)
    requires Valid(d) && AddDays(d, n).Ok?
    ensures AddDays(AddDays(d, n).value, m) == AddDays(d, n + m)
  {
    var e := AddDays(d, n).value;
    var r1, r2 := AddDays(e, m), AddDays(d, n + m);
    assert Ordinal(e) + m == Ordinal(d) + (n + m);
    if r1.Ok? {
      OrdinalInjective(r1.value, r2.value);
    }
  }

  /** Going back the same number of days returns to the start. */
  lemma AddInverse(d: Date, n: int)
    requires Valid(d) && AddDays(d, n).Ok?
    ensures AddDays(AddDays(d, n).value, -n) == Ok(d)
  {
    AddDaysTo(AddDays(d, n).value, -n, d);
  }

  /** `n` steps of NextDay: counting days one at a time. */
  function StepDays(d: Date, n: nat): (e: Date)
    requires IsCalendarDate(d)
    ensures IsCalendarDate(e) && Ordinal(e) == Ordinal(d) + n
  {
    if n == 0 then d
    else
      var p := StepDays(d, n - 1);
      NextDayOrdinal(p);
      NextDay(p)
  }

  /** Adding a non-negative offset agrees with counting that many days on
      the calendar. */
  lemma AddDaysCountsDays(d: Date, n: nat)
    requires Valid(d) && AddDays(d, n).Ok?
    ensures AddDays(d, n) == Ok(StepDays(d, n))
  {
    OrdinalInjective(AddDays(d, n).value, StepDays(d, n));
  }

  lemma PowersUsed()
    ensures Pow10(2) == 100 && Pow10(4) == 10000
  {
  }

  /** The shifted date is the one valid date at the shifted ordinal. */
  lemma AddDaysTo(d: Date, n: int, e: Date)
    requires Valid(d) && Valid(e) && Ordinal(e) == Ordinal(d) + n
    ensures AddDays(d, n) == Ok(e)
  {
    ValidOrdinalRange(e);
    OrdinalInjective(AddDays(d, n).value, e);
  }

  /** Five days after 2024-01-01 is 2024-01-06; one day before it is
      2023-12-31. */
  lemma ShiftExamples()
    ensures AddDays(Date(2024, 1, 1), 5) == Ok(Date(2024, 1, 6))
    ensures AddDays(Date(2024, 1, 1), -1) == Ok(Date(2023, 12, 31))
  {
    assert Ordinal(Date(2024, 1, 1)) == 738886;
    assert Ordinal(Date(2024, 1, 6)) == 738891;
    assert DaysBeforeYear(2023) == 738520;
    assert DaysBeforeMonth(2023, 12) == 334;
    assert Ordinal(Date(2023, 12, 31)) == 738885;
    AddDaysTo(Date(2024, 1, 1), 5, Date(2024, 1, 6));
    AddDaysTo(Date(2024, 1, 1), -1, Date(2023, 12, 31));
  }

  /** The fields of a `YYYY-MM-DD` text sit at fixed positions. */
  lemma Fields(y: string, m: string, d: string)
    requires |y| == 4 && |m| == 2 && |d| == 2
    ensures var s := y + "-" + m + "-" + d;
            |s| == 10 && s[4] == '-' && s[7] == '-' && s[..4] == y && s[5..7] == m && s[8..] == d
  {
    var s := y + "-" + m + "-" + d;
    assert s[..4] == y;
    assert s[5..7] == m;
    assert s[8..] == d;
  }

  /** `%Y-%m-%d` of three field values: zero-padded to 4, 2 and 2 digits. */
  function FormatFields(y: nat, m: nat, dd: nat): (s: string)
    requires y < 10000 && m < 100 && dd < 100
    ensures |s| == 10
  {
    PowersUsed();
    Pad(y, 4) + "-" + Pad(m, 2) + "-" + Pad(dd, 2)
  }

  /** `strftime("%Y-%m-%d")` of a date. */
  function FormatDate(d: Date): (s: string)
    requires Valid(d)
    ensures |s| == 10
  {
    FormatFields(d.year, d.month, d.day)
  }

  /** The three numbers of a zero-padded `YYYY-MM-DD` text, if it has that
      shape. */
  function ReadFields(s: string): (r: Option<(nat, nat, nat)>)
    ensures r.Some? ==> |s| == 10
  {
    if |s| == 10 && s[4] == '-' && s[7] == '-'
       && AllDigits(s[..4]) && AllDigits(s[5..7]) && AllDigits(s[8..]) then
      Some((ValueOf(s[..4]), ValueOf(s[5..7]), ValueOf(s[8..])))
    else None
  }

  /** Reading the zero-padded `YYYY-MM-DD` form back into a date. */
  function ParseIsoDate(s: string): (r: Option<Date>)
    ensures r.Some? ==> Valid(r.value)
  {
    match ReadFields(s)
    case None => None
    case Some((y, m, dd)) =>
      if Valid(Date(y, m, dd)) then Some(Date(y, m, dd)) else None
  }

  /** Three digit fields of widths 4, 2 and 2 joined by dashes read back as
      their values. */
  lemma ReadJoined(a: string, b: string, c: string)
    requires |a| == 4 && |b| == 2 && |c| == 2
    requires AllDigits(a) && AllDigits(b) && AllDigits(c)
    ensures ReadFields(a + "-" + b + "-" + c) == Some((ValueOf(a), ValueOf(b), ValueOf(c)))
  {
    Fields(a, b, c);
  }

  /** Formatted fields read back as the numbers written. */
  lemma ReadFormatted(y: nat, m: nat, dd: nat)
    requires y < 10000 && m < 100 && dd < 100
    ensures ReadFields(FormatFields(y, m, dd)) == Some((y, m, dd))
  {
    PowersUsed();
    ReadPadded(y, m, dd, 4, 2);
  }

  /** The same for field widths given as parameters, so that the widths stay
      symbolic in the proof. */
  lemma ReadPadded(y: nat, m: nat, dd: nat, wy: nat, wm: nat)
    requires wy == 4 && wm == 2
    requires y < Pow10(wy) && m < Pow10(wm) && dd < Pow10(wm)
    ensures ReadFields(Pad(y, wy) + "-" + Pad(m, wm) + "-" + Pad(dd, wm)) == Some((y, m, dd))
  {
    ReadJoined(Pad(y, wy), Pad(m, wm), Pad(dd, wm));
  }

  /** Formatting then reading gives the date back. */
  lemma ParseFormat(d: Date)
    requires Valid(d)
    ensures ParseIsoDate(FormatDate(d)) == Some(d)
  {
    ReadFormatted(d.year, d.month, d.day);
  }

  /** A `YYYY-MM-DD`-shaped text is its three fields joined by dashes. */
  lemma Rejoin(s: string)
    requires |s| == 10 && s[4] == '-' && s[7] == '-'
    ensures s == s[..4] + "-" + s[5..7] + "-" + s[8..]
  {
    assert forall k :: 0 <= k < 10 ==> s[k] == (s[..4] + "-" + s[5..7] + "-" + s[8..])[k];
  }

  /** Every text that reads as three fields is their formatting. */
  lemma FormatRead(s: string)
    requires ReadFields(s).Some?
    ensures var (y, m, dd) := ReadFields(s).value;
            y < 10000 && m < 100 && dd < 100 && FormatFields(y, m, dd) == s
  {
    PowersUsed();
    var y, m, d := s[..4], s[5..7], s[8..];
    PadValueOf(y);
    PadValueOf(m);
    PadValueOf(d);
    Rejoin(s);
  }

  /** Every text that reads as a date is that date's formatting. */
  lemma FormatParse(s: string)
    requires ParseIsoDate(s).Some?
    ensures FormatDate(ParseIsoDate(s).value) == s
  {
    var (y, m, dd) := ReadFields(s).value;
    assert ParseIsoDate(s).value == Date(y, m, dd);
    FormatRead(s);
  }
}

=== FILE: flatten.dfy ===
/** `flatten_section`: a list of education or work-experience entries made
    into one display string for the tabular record. */
module Flattener {
  import opened Strings
  import opened JsonValues

  /** One mapping member as the f-string `{k}: {v}` writes it. */
  function RenderMember(m: Member): (r: string)
    ensures |r| == |m.key| + 2 + |Str(m.value)|
    ensures r[..|m.key|] == m.key && r[|m.key|..|m.key| + 2] == ": " && r[|m.key| + 2..] == Str(m.value)
  {
    m.key + ": " + Str(m.value)
  }

  function RenderMembers(ms: seq<Member>): (r: seq<string>)
    ensures |r| == |ms|
    ensures forall i :: 0 <= i < |ms| ==> r[i] == RenderMember(ms[i])
  {
    seq(|ms|, i requires 0 <= i < |ms| => RenderMember(ms[i]))
  }

  /** One list entry: a mapping becomes its `k: v` pairs joined by ", " in
      insertion order; any other entry becomes its str(). */
  function RenderEntry(item: Json): (r: string)
    ensures item.JStr? ==> r == item.s
    ensures !item.JObj? ==> r == Str(item)
    ensures item == JObj([]) ==> r == ""
    ensures item.JObj? && |item.members| == 1 ==> r == RenderMember(item.members[0])
  {
    match item
    case JObj(ms) => Join(", ", RenderMembers(ms))
    case _ => Str(item)
  }

  function RenderEntries(items: seq<Json>): (r: seq<string>)
    ensures |r| == |items|
    ensures forall i :: 0 <= i < |items| ==> r[i] == RenderEntry(items[i])
  {
    seq(|items|, i requires 0 <= i < |items| => RenderEntry(items[i]))
  }

  /** `flatten_section`: the entries' renderings joined by " | " in list
      order; a value that is not a list flattens to "". */
  function FlattenSection(v: Json): (r: string)
    ensures !v.JArr? ==> r == ""
  {
    match v
    case JArr(items) => Join(" | ", RenderEntries(items))
    case _ => ""
  }

  /** An entry with no double quote in it: a string, or a mapping whose keys
      and string values carry none, as résumé entries usually are. */
  predicate PlainEntry(item: Json) {
    match item
    case JStr(s) => '"' !in s
    case JObj(ms) =>
      forall i :: 0 <= i < |ms| ==> '"' !in ms[i].key && ms[i].value.JStr? && '"' !in ms[i].value.s
    case _ => false
  }

  /** Flattening plain entries writes no double quote: the `k: v` pairs
      put none around keys or values. */
  lemma FlattenWritesNoQuote(items: seq<Json>)
    requires forall i :: 0 <= i < |items| ==> PlainEntry(items[i])
    ensures '"' !in FlattenSection(JArr(items))
  {
    var rendered := RenderEntries(items);
    forall i | 0 <= i < |items|
      ensures '"' !in rendered[i]
    {
      if items[i].JObj? {
        var ms := items[i].members;
        var pairs := RenderMembers(ms);
        forall k | 0 <= k < |ms|
          ensures '"' !in pairs[k]
        {
          assert pairs[k] == ms[k].key + ": " + ms[k].value.s;
        }
        JoinKeepsOut(", ", pairs, '"');
      }
    }
    JoinKeepsOut(" | ", rendered, '"');
  }

  /** The empty list flattens to "", like a missing field. */
  lemma FlattenEmpty()
    ensures FlattenSection(JArr([])) == ""
  {
  }

  /** A one-entry list is just that entry's rendering: no " | " is added. */
  lemma FlattenSingle(item: Json)
    ensures FlattenSection(JArr([item])) == RenderEntry(item)
  {
    assert RenderEntries([item]) == [RenderEntry(item)];
  }

  /** Entries keep list order with exactly one " | " between neighbours:
      the flattening of a concatenation is the two flattenings joined. */
  lemma FlattenAppend(a: seq<Json>, b: seq<Json>)
    requires |a| > 0 && |b| > 0
    ensures FlattenSection(JArr(a + b)) == FlattenSection(JArr(a)) + " | " + FlattenSection(JArr(b))
  {
    assert RenderEntries(a + b) == RenderEntries(a) + RenderEntries(b);
    JoinAppend(" | ", RenderEntries(a), RenderEntries(b));
  }

  /** A one-member mapping renders as `k: v`. */
  lemma MappingSingle(k: string, v: Json)
    ensures RenderEntry(JObj([Member(k, v)])) == k + ": " + Str(v)
  {
    assert RenderMembers([Member(k, v)]) == [RenderMember(Member(k, v))];
  }

  /** Members keep insertion order with exactly one ", " between neighbours. */
  lemma MappingAppend(a: seq<Member>, b: seq<Member>)
    requires |a| > 0 && |b| > 0
    ensures RenderEntry(JObj(a + b)) == RenderEntry(JObj(a)) + ", " + RenderEntry(JObj(b))
  {
    var ra, rb := RenderMembers(a), RenderMembers(b);
    assert RenderMembers(a + b) == ra + rb by {
      forall i | 0 <= i < |a + b| ensures RenderMembers(a + b)[i] == (ra + rb)[i] {
        if i < |a| { assert (a + b)[i] == a[i]; } else { assert (a + b)[i] == b[i - |a|]; }
      }
    }
    JoinAppend(", ", ra, rb);
  }

  /** A one-entry list of a two-member mapping of strings renders as
      `k1: v1, k2: v2`, with no " | " added. */
  lemma MappingPair(k1: string, v1: string, k2: string, v2: string)
    ensures FlattenSection(JArr([JObj([Member(k1, JStr(v1)), Member(k2, JStr(v2))])]))
            == k1 + ": " + v1 + ", " + k2 + ": " + v2
  {
    var m := [Member(k1, JStr(v1)), Member(k2, JStr(v2))];
    var e1, e2 := RenderEntry(JObj([m[0]])), RenderEntry(JObj([m[1]]));
    assert e1 == k1 + ": " + v1 by { MappingSingle(k1, JStr(v1)); }
    assert e2 == k2 + ": " + v2 by { MappingSingle(k2, JStr(v2)); }
    assert RenderEntry(JObj(m)) == e1 + ", " + e2 by {
      MappingAppend([m[0]], [m[1]]);
      assert [m[0]] + [m[1]] == m;
    }
    FlattenSingle(JObj(m));
  }

  /** A one-entry list of a two-member mapping: "a: 1, b: 2". */
  lemma MappingExample()
    ensures FlattenSection(JArr([JObj([Member("a", JStr("1")), Member("b", JStr("2"))])])) == "a: 1, b: 2"
  {
    MappingPair("a", "1", "b", "2");
  }

  /** A two-entry list of strings: "x | y". */
  lemma ListExample()
    ensures FlattenSection(JArr([JStr("x"), JStr("y")])) == "x | y"
  {
    FlattenAppend([JStr("x")], [JStr("y")]);
    assert [JStr("x")] + [JStr("y")] == [JStr("x"), JStr("y")];
    FlattenSingle(JStr("x"));
    FlattenSingle(JStr("y"));
  }
}

=== FILE: jobtitle.dfy ===
/** `extract_job_title`: the role the task planner puts in its prompt. It
    first searches the work-experience text for the pattern
    `position"\s*:\s*"([^"]+)"` under re.IGNORECASE, then for the keywords
    "Engineer", "Intern" and "Manager" (case-sensitive, in that priority),
    and otherwise answers "New Hire". */
module JobTitle {
  import opened Outcomes
  import opened Strings

  /** The pattern's literal prefix, in lower case. */
  const Key: string := "position\""

  /** `c` matches the pattern character `p` under re.IGNORECASE on a str
      pattern: its simple lower case equals `p`, and `i` and `s` also accept
      the dotless i and the long s that `re` treats as their equivalents. */
  predicate Folds(c: char, p: char) {
    if p == 'i' then c == 'i' || c == 'I' || c == '\U{130}' || c == '\U{131}'
    else if p == 's' then c == 's' || c == 'S' || c == '\U{17F}'
    else if 'a' <= p <= 'z' then c == p || c as int == p as int - 32
    else c == p
  }

  /** `position"` matches case-insensitively at index `i`. */
  predicate KeyAt(t: string, i: nat) {
    i + |Key| <= |t| && forall k :: 0 <= k < |Key| ==> Folds(t[i + k], Key[k])
  }

  /** The pattern matches at `i` with its `:` at `colon`, the opening quote of
      the value at `quote` and the closing quote at `close`; the captured
      value is `t[quote + 1..close]`. */
  ghost predicate PatternMatch(t: string, i: nat, colon: nat, quote: nat, close: nat) {
    && KeyAt(t, i)
    && i + |Key| <= colon < quote < close < |t|
    && AllSpace(t[i + |Key|..colon]) && t[colon] == ':'
    && AllSpace(t[colon + 1..quote]) && t[quote] == '"'
    && quote + 1 < close && '"' !in t[quote + 1..close] && t[close] == '"'
  }

  /** Where the pattern's parts sit in a successful match. */
  datatype Hit = Hit(colon: nat, quote: nat, close: nat)

  /** First index at or after `i` that is not whitespace (`\s*` is greedy). */
  function SkipSpaces(t: string, i: nat): (j: nat)
    requires i <= |t|
    ensures i <= j <= |t| && AllSpace(t[i..j]) && (j < |t| ==> !IsSpace(t[j]))
    decreases |t| - i
  {
    if i < |t| && IsSpace(t[i]) then
      var j := SkipSpaces(t, i + 1);
      assert t[i..j] == [t[i]] + t[i + 1..j];
      AllSpaceAppend([t[i]], t[i + 1..j]);
      j
    else i
  }

  /** First index at or after `i` holding a `"` (`[^"]+` is greedy). */
  function NextQuote(t: string, i: nat): (j: nat)
    requires i <= |t|
    ensures i <= j <= |t| && '"' !in t[i..j] && (j < |t| ==> t[j] == '"')
    decreases |t| - i
  {
    if i < |t| && t[i] != '"' then
      var j := NextQuote(t, i + 1);
      assert t[i..j] == [t[i]] + t[i + 1..j];
      j
    else i
  }

  /** The pattern anchored at `i`: the match, if any, with its group. Since
      `\s` excludes `:` and `"`, and `[^"]` excludes `"`, there is at most
      one way to match at `i`, and backtracking finds no other. */
  function MatchAt(t: string, i: nat): (r: Option<Hit>)
    requires i <= |t|
    ensures r.Some? ==> i + |Key| <= r.value.colon < r.value.quote && r.value.quote + 1 < r.value.close < |t|
  {
    if !KeyAt(t, i) then None
    else
      var colon := SkipSpaces(t, i + |Key|);
      if colon == |t| || t[colon] != ':' then None
      else
        var quote := SkipSpaces(t, colon + 1);
        if quote == |t| || t[quote] != '"' then None
        else
          var close := NextQuote(t, quote + 1);
          if close == |t| || close == quote + 1 then None
          else Some(Hit(colon, quote, close))
  }

  /** What MatchAt finds is a match of the pattern. */
  lemma MatchAtSound(t: string, i: nat)
    requires i <= |t| && MatchAt(t, i).Some?
    ensures var h := MatchAt(t, i).value; PatternMatch(t, i, h.colon, h.quote, h.close)
  {
  }

  /** A run of whitespace from `a` ended by a non-space at `b` is exactly
      what `\s*` consumes from `a`. */
  lemma SpacesEndAt(t: string, a: nat, b: nat)
    requires a <= b < |t| && AllSpace(t[a..b]) && !IsSpace(t[b])
    ensures SkipSpaces(t, a) == b
  {
    var j := SkipSpaces(t, a);
    forall k | a <= k < b ensures IsSpace(t[k]) { assert t[a..b][k - a] == t[k]; }
    forall k | a <= k < j ensures IsSpace(t[k]) { assert t[a..j][k - a] == t[k]; }
  }

  /** A quote-free run from `a` ended by a quote at `b` is exactly what
      `[^"]+` consumes from `a`. */
  lemma QuoteEndsAt(t: string, a: nat, b: nat)
    requires a <= b < |t| && '"' !in t[a..b] && t[b] == '"'
    ensures NextQuote(t, a) == b
  {
    var j := NextQuote(t, a);
    forall k | a <= k < b ensures t[k] != '"' { assert t[a..b][k - a] == t[k]; }
    forall k | a <= k < j ensures t[k] != '"' { assert t[a..j][k - a] == t[k]; }
  }

  /** Every way the pattern can match at `i` is the one MatchAt finds. */
  lemma MatchAtComplete(t: string, i: nat, colon: nat, quote: nat, close: nat)
    requires PatternMatch(t, i, colon, quote, close)
    ensures MatchAt(t, i) == Some(Hit(colon, quote, close))
  {
    assert SkipSpaces(t, i + |Key|) == colon by { SpacesEndAt(t, i + |Key|, colon); }
    assert SkipSpaces(t, colon + 1) == quote by { SpacesEndAt(t, colon + 1, quote); }
    assert NextQuote(t, quote + 1) == close by { QuoteEndsAt(t, quote + 1, close); }
  }

  /** The pattern matches at no index in `from..to`. */
  predicate NoMatchIn(t: string, from: nat, to: nat)
    requires to <= |t| + 1
  {
    forall k: nat :: from <= k < to ==> MatchAt(t, k).None?
  }

  /** re.search: the leftmost index at or after `from` where the pattern
      matches. */
  function FindMatch(t: string, from: nat): (r: Option<nat>)
    requires from <= |t|
    ensures r.Some? ==> from <= r.value <= |t| && MatchAt(t, r.value).Some? && NoMatchIn(t, from, r.value)
    ensures r.None? ==> NoMatchIn(t, from, |t| + 1)
    decreases |t| - from
  {
    if MatchAt(t, from).Some? then Some(from)
    else if from == |t| then None
    else
      var r := FindMatch(t, from + 1);
      NoMatchExtend(t, from, if r.Some? then r.value else |t| + 1);
      r
  }

  lemma NoMatchExtend(t: string, from: nat, to: nat)
    requires from < to <= |t| + 1 && MatchAt(t, from).None? && NoMatchIn(t, from + 1, to)
    ensures NoMatchIn(t, from, to)
  {
  }

  /** The job title `extract_job_title` derives from the text. */
  function ExtractJobTitle(t: string): (title: string)
    ensures title != ""
  {
    match FindMatch(t, 0)
    case Some(i) =>
      var h := MatchAt(t, i).value;
      t[h.quote + 1..h.close]
    case None =>
      if Contains(t, "Engineer") then "Engineer"
      else if Contains(t, "Intern") then "Intern"
      else if Contains(t, "Manager") then "Manager"
      else "New Hire"
  }

  /** With a match, the title is the value captured by the leftmost match:
      non-empty and free of `"`. */
  lemma TitleFromLeftmostMatch(t: string, i: nat, colon: nat, quote: nat, close: nat)
    requires PatternMatch(t, i, colon, quote, close)
    requires forall i': nat, c': nat, q': nat, e': nat :: i' < i ==> !PatternMatch(t, i', c', q', e')
    ensures ExtractJobTitle(t) == t[quote + 1..close]
    ensures ExtractJobTitle(t) != "" && '"' !in ExtractJobTitle(t)
  {
    MatchAtComplete(t, i, colon, quote, close);
    forall j: nat | j < i
      ensures MatchAt(t, j).None?
    {
      if MatchAt(t, j).Some? {
        MatchAtSound(t, j);
      }
    }
    SearchFindsLeftmost(t, i);
  }

  /** re.search reports the first index where the pattern matches. */
  lemma SearchFindsLeftmost(t: string, i: nat)
    requires i <= |t| && MatchAt(t, i).Some?
    requires forall j: nat :: j < i ==> MatchAt(t, j).None?
    ensures FindMatch(t, 0) == Some(i)
  {
  }

  /** Without a match, the keywords are tried case-sensitively in priority
      order, and "New Hire" is the fallback. */
  lemma TitleWithoutMatch(t: string)
    requires forall i: nat, colon: nat, quote: nat, close: nat :: !PatternMatch(t, i, colon, quote, close)
    ensures ExtractJobTitle(t) ==
              if exists j :: OccursAt(t, "Engineer", j) then "Engineer"
              else if exists j :: OccursAt(t, "Intern", j) then "Intern"
              else if exists j :: OccursAt(t, "Manager", j) then "Manager"
              else "New Hire"
  {
    var j := FindMatch(t, 0);
    if j.Some? {
      MatchAtSound(t, j.value);
    }
  }

  /** Text without a double quote never matches the pattern, so its title is
      decided by the keywords alone. */
  lemma QuoteFreeTitle(t: string)
    requires '"' !in t
    ensures ExtractJobTitle(t) ==
              if exists j :: OccursAt(t, "Engineer", j) then "Engineer"
              else if exists j :: OccursAt(t, "Intern", j) then "Intern"
              else if exists j :: OccursAt(t, "Manager", j) then "Manager"
              else "New Hire"
  {
    forall i: nat, colon: nat, quote: nat, close: nat
      ensures !PatternMatch(t, i, colon, quote, close)
    {
    }
    TitleWithoutMatch(t);
  }

}

=== FILE: json.dfy ===
/** The values json.loads produces, as a tagged union, with the dict
    operations the scripts use (`get`, item assignment) and Python's str(). */
module JsonValues {
  import opened Outcomes
  import opened Strings
  import opened Numerals

  /** A decoded JSON value. An object keeps its members in insertion order,
      as a Python dict does. Numbers are integers only. */
  datatype Json =
    | JNull
    | JBool(b: bool)
    | JInt(i: int)
    | JStr(s: string)
    | JArr(items: seq<Json>)
    | JObj(members: seq<Member>)

  datatype Member = Member(key: string, value: Json)

  /** The keys of an object, in insertion order. */
  function Keys(ms: seq<Member>): (ks: seq<string>)
  {
    seq(|ms|, i requires 0 <= i < |ms| => ms[i].key)
  }

  /** `d[key]` when present: the value of the first member with that key. */
  function Lookup(ms: seq<Member>, key: string): (r: Option<Json>)
    ensures r.None? <==> key !in Keys(ms)
  {
    if |ms| == 0 then None
    else if ms[0].key == key then
      assert Keys(ms)[0] == key;
      Some(ms[0].value)
    else
      var r := Lookup(ms[1..], key);
      assert Keys(ms) == [ms[0].key] + Keys(ms[1..]);
      r
  }

  /** The member at index `i` is the one a lookup of its key finds when no
      earlier member has that key. */
  lemma {:induction false} LookupFirst(ms: seq<Member>, i: nat)
    requires i < |ms| && ms[i].key !in Keys(ms)[..i]
    ensures Lookup(ms, ms[i].key) == Some(ms[i].value)
    decreases i
  {
    if i > 0 {
      assert Keys(ms)[..i][0] == ms[0].key;
      assert Keys(ms[1..])[..i - 1] == Keys(ms)[1..i];
      LookupFirst(ms[1..], i - 1);
    }
  }

  /** Python's `d.get(key, default)` on a dict. */
  function Get(ms: seq<Member>, key: string, default: Json): (v: Json)
    ensures key !in Keys(ms) ==> v == default
    ensures key in Keys(ms) ==> Lookup(ms, key) == Some(v)
  {
    match Lookup(ms, key)
    case Some(v) => v
    case None => default
  }

  /** Python's `d[key] = value`: an existing key keeps its position and
      takes the new value; a new key is appended at the end. */
  function SetKey(ms: seq<Member>, key: string, value: Json): (r: seq<Member>)
    ensures key in Keys(ms) ==> Keys(r) == Keys(ms)
    ensures key !in Keys(ms) ==> Keys(r) == Keys(ms) + [key]
    ensures Lookup(r, key) == Some(value)
    ensures forall k :: k != key ==> Lookup(r, k) == Lookup(ms, k)
  {
    if |ms| == 0 then
      [Member(key, value)]
    else if ms[0].key == key then
      var r := [Member(key, value)] + ms[1..];
      Cons(ms[0], ms[1..]);
      Cons(Member(key, value), ms[1..]);
      assert ms == [ms[0]] + ms[1..];
      r
    else
      var tail := SetKey(ms[1..], key, value);
      Cons(ms[0], ms[1..]);
      Cons(ms[0], tail);
      assert ms == [ms[0]] + ms[1..];
      [ms[0]] + tail
  }

  /** Keys and lookups of a member list with one member put in front. */
  lemma Cons(m: Member, ms: seq<Member>)
    ensures Keys([m] + ms) == [m.key] + Keys(ms)
    ensures forall k :: Lookup([m] + ms, k) == if m.key == k then Some(m.value) else Lookup(ms, k)
  {
    assert ([m] + ms)[1..] == ms;
  }

  /** Python's str() of a decoded value: a string is itself, everything else
      is its repr(). */
  function Str(v: Json): (r: string)
    ensures v.JStr? ==> r == v.s
    ensures !v.JStr? ==> |r| > 0
    ensures v.JNull? ==> r == "None"
    ensures v.JBool? ==> r == if v.b then "True" else "False"
    ensures v.JInt? ==> r == IntToString(v.i) && ParseInt(r) == Some(v.i)
    decreases v, 1
  {
    match v
    case JStr(s) => s
    case _ => Repr(v)
  }

  /** repr() of a str, without the escaping of quotes and control characters. */
  function Quote(s: string): string {
    "'" + s + "'"
  }

  /** Python's repr() of a decoded value. */
  function Repr(v: Json): (r: string)
    ensures |r| > 0
    ensures v.JNull? ==> r == "None"
    ensures v.JBool? ==> r == if v.b then "True" else "False"
    ensures v.JInt? ==> r == IntToString(v.i) && ParseInt(r) == Some(v.i)
    ensures v.JArr? ==> r[0] == '[' && r[|r| - 1] == ']'
    ensures v.JObj? ==> r[0] == '{' && r[|r| - 1] == '}'
    decreases v, 0
  {
    match v
    case JNull => "None"
    case JBool(b) => if b then "True" else "False"
    case JInt(i) => ParseIntToString(i); IntToString(i)
    case JStr(s) => Quote(s)
    case JArr(items) => "[" + Join(", ", ReprItems(items)) + "]"
    case JObj(ms) => "{" + Join(", ", ReprMembers(ms)) + "}"
  }

  function ReprItems(items: seq<Json>): (r: seq<string>)
    ensures |r| == |items|
    decreases items
  {
    if |items| == 0 then [] else [Repr(items[0])] + ReprItems(items[1..])
  }

  function ReprMembers(ms: seq<Member>): (r: seq<string>)
    ensures |r| == |ms|
    decreases ms
  {
    if |ms| == 0 then []
    else [Quote(ms[0].key) + ": " + Repr(ms[0].value)] + ReprMembers(ms[1..])
  }
}

=== FILE: numerals.dfy ===
/** Decimal numerals: Python's str() of an int, int() of a str, and the
    fixed-width zero-padded fields strftime writes. */
module Numerals {
  import opened Outcomes
  import opened Strings

  predicate IsDigit(c: char) {
    '0' <= c <= '9'
  }

  predicate AllDigits(s: string) {
    forall i :: 0 <= i < |s| ==> IsDigit(s[i])
  }

  function DigitChar(d: int): (c: char)
    requires 0 <= d <= 9
    ensures IsDigit(c)
  {
    ('0' as int + d) as char
  }

  function DigitValue(c: char): (d: int)
    requires IsDigit(c)
    ensures 0 <= d <= 9 && DigitChar(d) == c
  {
    c as int - '0' as int
  }

  /** The number a string of decimal digits denotes (most significant first). */
  function ValueOf(s: string): nat
    requires AllDigits(s)
  {
    if |s| == 0 then 0 else 10 * ValueOf(s[..|s| - 1]) + DigitValue(s[|s| - 1])
  }

  /** Python's str() of a non-negative int: digits without leading zeros. */
  function Digits(n: nat): (s: string)
    ensures 1 <= |s| && AllDigits(s)
    ensures |s| > 1 ==> s[0] != '0'
    ensures ValueOf(s) == n
    decreases n
  {
    if n < 10 then [DigitChar(n)]
    else
      var s := Digits(n / 10) + [DigitChar(n % 10)];
      assert s[..|s| - 1] == Digits(n / 10);
      s
  }

  /** A numeral in the form str() writes: digits, no leading zero unless the
      numeral is `0` itself. */
  predicate Canonical(d: string) {
    |d| > 0 && AllDigits(d) && (|d| > 1 ==> d[0] != '0')
  }

  /** Python's str() of an int: a `-` exactly for a negative number, then
      the canonical numeral of its magnitude. */
  function IntToString(i: int): (s: string)
    ensures |s| > 0 && Stripped(s)
    ensures AllDigits(s) <==> i >= 0
    ensures (i < 0) == (s[0] == '-')
    ensures var d := if i < 0 then s[1..] else s;
            Canonical(d) && ValueOf(d) == if i < 0 then -i else i
  {
    if i < 0 then
      var s := "-" + Digits(-i);
      assert s[1..] == Digits(-i);
      s
    else Digits(i)
  }

  /** A numeral whose first digit is not zero denotes a positive number. */
  lemma {:induction false} LeadingNonzero(p: string)
    requires |p| > 0 && AllDigits(p) && p[0] != '0'
    ensures ValueOf(p) >= 1
    decreases |p|
  {
    if |p| > 1 {
      var q := p[..|p| - 1];
      assert q[0] == p[0];
      LeadingNonzero(q);
    }
  }

  /** Each number has one canonical numeral: the one Digits writes. */
  lemma {:induction false} CanonicalDigits(s: string)
    requires Canonical(s)
    ensures Digits(ValueOf(s)) == s
    decreases |s|
  {
    if |s| > 1 {
      var p := s[..|s| - 1];
      var c := s[|s| - 1];
      assert p[0] == s[0];
      LeadingNonzero(p);
      CanonicalDigits(p);
      var v := ValueOf(s);
      assert v == 10 * ValueOf(p) + DigitValue(c);
      assert v / 10 == ValueOf(p) && v % 10 == DigitValue(c);
      assert s == p + [c];
    }
  }

  /** The digit groups Python's int() accepts: digits, with single underscores
      allowed between two digits (`1_000`). */
  function ParseDigitGroups(s: string): (r: Option<nat>)
    ensures AllDigits(s) && |s| > 0 ==> r == Some(ValueOf(s))
    ensures r.Some? ==> |s| > 0 && IsDigit(s[0]) && IsDigit(s[|s| - 1])
    decreases |s|
  {
    if |s| == 0 || !IsDigit(s[|s| - 1]) then None
    else
      var d := DigitValue(s[|s| - 1]);
      var p := s[..|s| - 1];
      if |p| == 0 then Some(d)
      else
        var q := if p[|p| - 1] == '_' then p[..|p| - 1] else p;
        if |q| == 0 then None
        else match ParseDigitGroups(q)
          case None => None
          case Some(v) =>
            assert q[0] == s[0];
            Some(10 * v + d)
  }

  /** A character of a digit-group numeral. */
  predicate GroupChar(c: char) {
    IsDigit(c) || c == '_'
  }

  /** The numerals int() accepts after the sign: digits, where a single `_`
      may stand between two digits (`1_000`, but not `_1`, `1_` or `1__0`). */
  ghost predicate DigitGroups(s: string) {
    && |s| > 0 && IsDigit(s[0]) && IsDigit(s[|s| - 1])
    && (forall i :: 0 <= i < |s| ==> GroupChar(s[i]))
    && (forall i, j :: 0 <= i < j < |s| && j == i + 1 ==> s[i] == '_' ==> s[j] != '_')
  }

  /** The digits of a digit-group numeral with its underscores taken out. */
  function Unscore(s: string): (r: string)
    requires forall i :: 0 <= i < |s| ==> GroupChar(s[i])
    ensures AllDigits(r)
    decreases |s|
  {
    if |s| == 0 then ""
    else
      var last := s[|s| - 1];
      var u := Unscore(s[..|s| - 1]);
      var tail := if last == '_' then "" else [last];
      assert AllDigits(u + tail) by {
        assert GroupChar(last);
        forall i | 0 <= i < |u + tail| ensures IsDigit((u + tail)[i]) {
          if i < |u| { assert (u + tail)[i] == u[i]; } else { assert (u + tail)[i] == tail[i - |u|]; }
        }
      }
      u + tail
  }

  /** A plain run of digits is a digit-group numeral with nothing to take out. */
  lemma {:induction false} UnscoreDigits(s: string)
    requires AllDigits(s)
    ensures Unscore(s) == s
    decreases |s|
  {
    if |s| > 0 {
      UnscoreDigits(s[..|s| - 1]);
      assert s[..|s| - 1] + [s[|s| - 1]] == s;
    }
  }

  lemma ValueOfSnoc(s: string, c: char)
    requires AllDigits(s) && IsDigit(c)
    ensures AllDigits(s + [c]) && ValueOf(s + [c]) == 10 * ValueOf(s) + DigitValue(c)
  {
    assert (s + [c])[..|s|] == s;
  }

  /** A digit after anything but an underscore: the numeral stays well
      formed exactly when it was. */
  lemma GroupsSnocDigit(p: string, c: char)
    requires IsDigit(c) && |p| > 0 && p[|p| - 1] != '_'
    ensures DigitGroups(p + [c]) <==> DigitGroups(p)
  {
    var s := p + [c];
    if DigitGroups(p) {
      forall i | 0 <= i < |s| ensures GroupChar(s[i]) {
        if i < |p| { assert s[i] == p[i]; }
      }
      forall i, j | 0 <= i < j < |s| && j == i + 1 && s[i] == '_' ensures s[j] != '_' {
        if j < |p| { assert s[i] == p[i] && s[j] == p[j]; }
      }
    }
    if DigitGroups(s) {
      assert p[0] == s[0] && p[|p| - 1] == s[|s| - 2];
      forall i | 0 <= i < |p| ensures GroupChar(p[i]) { assert p[i] == s[i]; }
      forall i, j | 0 <= i < j < |p| && j == i + 1 && p[i] == '_' ensures p[j] != '_' {
        assert p[i] == s[i] && p[j] == s[j];
      }
    }
  }

  /** An underscore and a digit after `q`: well formed exactly when `q` is. */
  lemma GroupsSnocUnderscore(q: string, c: char)
    requires IsDigit(c) && |q| > 0
    ensures DigitGroups(q + ['_'] + [c]) <==> DigitGroups(q)
  {
    var s := q + ['_'] + [c];
    if DigitGroups(q) {
      forall i | 0 <= i < |s| ensures GroupChar(s[i]) {
        if i < |q| { assert s[i] == q[i]; }
      }
      forall i, j | 0 <= i < j < |s| && j == i + 1 && s[i] == '_' ensures s[j] != '_' {
        if j < |q| { assert s[i] == q[i] && s[j] == q[j]; }
      }
    }
    if DigitGroups(s) {
      assert s[|s| - 2] == '_';
      assert q[0] == s[0] && q[|q| - 1] == s[|s| - 3];
      forall i | 0 <= i < |q| ensures GroupChar(q[i]) { assert q[i] == s[i]; }
      forall i, j | 0 <= i < j < |q| && j == i + 1 && q[i] == '_' ensures q[j] != '_' {
        assert q[i] == s[i] && q[j] == s[j];
      }
    }
  }

  lemma UnscoreSnoc(p: string, c: char)
    requires (forall i :: 0 <= i < |p| ==> GroupChar(p[i])) && GroupChar(c)
    ensures forall i :: 0 <= i < |p + [c]| ==> GroupChar((p + [c])[i])
    ensures Unscore(p + [c]) == Unscore(p) + (if c == '_' then "" else [c])
  {
    var s := p + [c];
    assert s[..|s| - 1] == p && s[|s| - 1] == c;
  }

  /** The meaning of ParseDigitGroups on one text, as the induction uses it. */
  ghost predicate GroupsMeaning(s: string) {
    && (ParseDigitGroups(s).Some? <==> DigitGroups(s))
    && (DigitGroups(s) ==> ParseDigitGroups(s).value == ValueOf(Unscore(s)))
  }

  /** The parser's step over a last digit that follows a digit. */
  lemma DigitStep(p: string, c: char)
    requires IsDigit(c) && |p| > 0 && p[|p| - 1] != '_'
    ensures ParseDigitGroups(p + [c]).Some? <==> ParseDigitGroups(p).Some?
    ensures ParseDigitGroups(p).Some? ==>
              ParseDigitGroups(p + [c]).value == 10 * ParseDigitGroups(p).value + DigitValue(c)
  {
    var s := p + [c];
    assert s[..|s| - 1] == p && s[|s| - 1] == c;
  }

  /** The parser's step over a last digit that follows an underscore. */
  lemma UnderscoreStep(q: string, c: char)
    requires IsDigit(c) && |q| > 0
    ensures ParseDigitGroups(q + ['_'] + [c]).Some? <==> ParseDigitGroups(q).Some?
    ensures ParseDigitGroups(q).Some? ==>
              ParseDigitGroups(q + ['_'] + [c]).value == 10 * ParseDigitGroups(q).value + DigitValue(c)
  {
    var p := q + ['_'];
    var s := p + [c];
    assert s[..|s| - 1] == p && s[|s| - 1] == c;
    assert p[..|p| - 1] == q && p[|p| - 1] == '_';
  }

  /** Inductive step for a digit that follows a digit. */
  lemma GroupsMeaningDigit(p: string, c: char)
    requires IsDigit(c) && |p| > 0 && p[|p| - 1] != '_' && GroupsMeaning(p)
    ensures GroupsMeaning(p + [c])
  {
    DigitStep(p, c);
    GroupsSnocDigit(p, c);
    if DigitGroups(p) {
      UnscoreSnoc(p, c);
      ValueOfSnoc(Unscore(p), c);
    }
  }

  /** Inductive step for a digit that follows a single underscore. */
  lemma GroupsMeaningUnderscore(q: string, c: char)
    requires IsDigit(c) && |q| > 0 && GroupsMeaning(q)
    ensures GroupsMeaning(q + ['_'] + [c])
  {
    UnderscoreStep(q, c);
    GroupsSnocUnderscore(q, c);
    if DigitGroups(q) {
      assert Unscore(q + ['_'] + [c]) == Unscore(q) + [c] by {
        UnscoreSnoc(q, '_');
        UnscoreSnoc(q + ['_'], c);
      }
      ValueOfSnoc(Unscore(q), c);
    }
  }

  /** ParseDigitGroups accepts exactly the texts of int()'s digit grammar
      (digits, single underscores between them) and reads the value of the
      digits with the underscores removed. */
  lemma {:induction false} ParseDigitGroupsMeaning(s: string)
    ensures ParseDigitGroups(s) == if DigitGroups(s) then Some(ValueOf(Unscore(s))) else None
    decreases |s|
  {
    if |s| == 0 || !IsDigit(s[|s| - 1]) {
    } else {
      var c := s[|s| - 1];
      var p := s[..|s| - 1];
      assert s == p + [c];
      if |p| == 0 {
        assert DigitGroups(s);
        UnscoreSnoc("", c);
        ValueOfSnoc("", c);
      } else if p[|p| - 1] == '_' {
        var q := p[..|p| - 1];
        if |q| == 0 {
          assert s[0] == '_';
        } else {
          assert s == q + ['_'] + [c];
          ParseDigitGroupsMeaning(q);
          GroupsMeaningUnderscore(q, c);
        }
      } else {
        ParseDigitGroupsMeaning(p);
        GroupsMeaningDigit(p, c);
      }
    }
  }

  /** The whitespace int() skips around a numeral. CPython's int() of a str
      turns every non-ASCII whitespace character into a space and then skips
      ASCII whitespace only (tab, line feed, vertical tab, form feed,
      carriage return, space); the separators U+001C..U+001F, which
      str.isspace() counts, are therefore not skipped. */
  predicate IntSpace(c: char) {
    IsSpace(c) && !('\U{1C}' <= c <= '\U{1F}')
  }

  predicate AllIntSpace(s: string) {
    forall i :: 0 <= i < |s| ==> IntSpace(s[i])
  }

  /** No int() whitespace at either end. */
  predicate IntStripped(s: string) {
    |s| == 0 || (!IntSpace(s[0]) && !IntSpace(s[|s| - 1]))
  }

  /** `s` without the leading and trailing whitespace int() skips. */
  function IntStrip(s: string): (r: string)
    ensures IntStripped(r) && |r| <= |s|
  {
    if |s| > 0 && IntSpace(s[0]) then IntStrip(s[1..])
    else if |s| > 0 && IntSpace(s[|s| - 1]) then IntStrip(s[..|s| - 1])
    else s
  }

  /** int() skips everything str.strip() would, except U+001C..U+001F: on a
      text without those separators the two strips agree. */
  lemma {:induction false} IntStripAgrees(s: string)
    requires forall i :: 0 <= i < |s| ==> !('\U{1C}' <= s[i] <= '\U{1F}')
    ensures IntStrip(s) == Strip(s)
    decreases |s|
  {
    if |s| > 0 && IsSpace(s[0]) {
      IntStripAgrees(s[1..]);
    } else if |s| > 0 && IsSpace(s[|s| - 1]) {
      IntStripAgrees(s[..|s| - 1]);
    }
  }

  lemma IntStripStripped(s: string)
    requires IntStripped(s)
    ensures IntStrip(s) == s
  {
  }

  lemma {:induction false} IntStripAfterSpaces(w: string, s: string)
    requires AllIntSpace(w)
    ensures IntStrip(w + s) == IntStrip(s)
    decreases |w|
  {
    if |w| > 0 {
      assert (w + s)[0] == w[0] && IntSpace(w[0]);
      assert (w + s)[1..] == w[1..] + s;
      IntStripAfterSpaces(w[1..], s);
    } else {
      assert w + s == s;
    }
  }

  lemma IntStripAllSpace(w: string)
    requires AllIntSpace(w)
    ensures IntStrip(w) == ""
  {
    assert w + "" == w;
    IntStripAfterSpaces(w, "");
  }

  lemma {:induction false} IntStripBeforeSpaces(s: string, w: string)
    requires AllIntSpace(w)
    ensures IntStrip(s + w) == IntStrip(s)
    decreases |s| + |w|
  {
    var t := s + w;
    if |s| > 0 && IntSpace(s[0]) {
      assert t[0] == s[0];
      assert t[1..] == s[1..] + w;
      IntStripBeforeSpaces(s[1..], w);
    } else if |s| == 0 {
      assert t == w;
      IntStripAllSpace(w);
    } else if |w| > 0 {
      assert t[0] == s[0];
      assert t[|t| - 1] == w[|w| - 1];
      assert t[..|t| - 1] == s + w[..|w| - 1];
      IntStripBeforeSpaces(s, w[..|w| - 1]);
    } else {
      assert t == s;
    }
  }

  /** int() whitespace on either side of a text does not change its strip. */
  lemma IntStripFramed(w1: string, s: string, w2: string)
    requires AllIntSpace(w1) && AllIntSpace(w2)
    ensures IntStrip(w1 + s + w2) == IntStrip(s)
  {
    assert w1 + s + w2 == w1 + (s + w2);
    IntStripAfterSpaces(w1, s + w2);
    IntStripBeforeSpaces(s, w2);
  }

  /** What int() strips off whitespace text is whitespace text again. */
  lemma {:induction false} IntStripOfSpace(s: string)
    requires AllSpace(s)
    ensures AllSpace(IntStrip(s))
    decreases |s|
  {
    if |s| > 0 && IntSpace(s[0]) {
      IntStripOfSpace(s[1..]);
    } else if |s| > 0 && IntSpace(s[|s| - 1]) {
      IntStripOfSpace(s[..|s| - 1]);
    }
  }

  /** int() of a text that has no surrounding whitespace: one optional
      sign, then digit groups. */
  function SignedGroups(t: string): Option<int> {
    if |t| > 0 && (t[0] == '-' || t[0] == '+') then
      match ParseDigitGroups(t[1..])
      case None => None
      case Some(v) =>
        var i: int := if t[0] == '-' then -(v as int) else v;
        Some(i)
    else
      match ParseDigitGroups(t)
      case None => None
      case Some(v) =>
        var i: int := v;
        Some(i)
  }

  /** Python's int() of a str in base 10: the whitespace IntSpace names is
      skipped at both ends, then one optional sign, then digit groups. */
  function ParseInt(s: string): (r: Option<int>)
    ensures r.Some? ==> var t := IntStrip(s);
              && |t| > 0 && IsDigit(t[|t| - 1])
              && (IsDigit(t[0]) || t[0] == '-' || t[0] == '+')
  {
    SignedGroups(IntStrip(s))
  }

  /** After a sign, the digit groups decide: their value, negated after `-`. */
  lemma SignedGroupsSign(sign: char, g: string)
    requires sign == '-' || sign == '+'
    ensures SignedGroups([sign] + g)
            == if !DigitGroups(g) then None
               else if sign == '-' then Some(-(ValueOf(Unscore(g)) as int))
               else Some(ValueOf(Unscore(g)) as int)
  {
    assert ([sign] + g)[1..] == g;
    ParseDigitGroupsMeaning(g);
  }

  /** Without a sign, the digit groups decide alone. */
  lemma SignedGroupsUnsigned(g: string)
    requires |g| == 0 || (g[0] != '-' && g[0] != '+')
    ensures SignedGroups(g) == if DigitGroups(g) then Some(ValueOf(Unscore(g)) as int) else None
  {
    ParseDigitGroupsMeaning(g);
  }

  /** int() of a text: skip the IntSpace whitespace, take off one `-` or `+`, and
      what remains must be a digit-group numeral; its digits give the value,
      negated after `-`. Anything else is a ValueError. */
  lemma ParseIntMeaning(s: string)
    ensures var t := IntStrip(s);
            |t| > 0 && (t[0] == '-' || t[0] == '+') ==>
              ParseInt(s) == if !DigitGroups(t[1..]) then None
                             else if t[0] == '-' then Some(-(ValueOf(Unscore(t[1..])) as int))
                             else Some(ValueOf(Unscore(t[1..])) as int)
    ensures var t := IntStrip(s);
            !(|t| > 0 && (t[0] == '-' || t[0] == '+')) ==>
              ParseInt(s) == if DigitGroups(t) then Some(ValueOf(Unscore(t)) as int) else None
  {
    var t := IntStrip(s);
    assert ParseInt(s) == SignedGroups(t);
    if |t| > 0 && (t[0] == '-' || t[0] == '+') {
      var g := t[1..];
      assert t == [t[0]] + g;
      SignedGroupsSign(t[0], g);
    } else {
      SignedGroupsUnsigned(t);
    }
  }

  /** A plain run of digits is a digit-group numeral of its own digits. */
  lemma DigitRunGroups(d: string)
    requires AllDigits(d) && |d| > 0
    ensures DigitGroups(d) && Unscore(d) == d
  {
    UnscoreDigits(d);
  }

  /** int(str(i)) == i. */
  lemma ParseIntToString(i: int)
    ensures ParseInt(IntToString(i)) == Some(i)
  {
    if i < 0 {
      ParseNegative(-i);
    } else {
      ParseNonNegative(i);
    }
  }

  /** int() of the numeral `-d`: the negated value. */
  lemma ParseNegative(n: nat)
    requires n > 0
    ensures ParseInt("-" + Digits(n)) == Some(-(n as int))
  {
    ParseMinusDigits(Digits(n));
  }

  /** int() of a minus sign followed by a run of digits. */
  lemma ParseMinusDigits(d: string)
    requires AllDigits(d) && |d| > 0
    ensures ParseInt("-" + d) == Some(-(ValueOf(d) as int))
  {
    StripMinus(d);
    assert IntStrip("-" + d)[1..] == d;
  }

  /** A minus sign before a run of digits has nothing to strip. */
  lemma StripMinus(d: string)
    requires AllDigits(d) && |d| > 0
    ensures IntStrip("-" + d) == ['-'] + d
  {
    var x := "-" + d;
    assert IntStripped(x) by { assert x[0] == '-' && x[|x| - 1] == d[|d| - 1] && IsDigit(d[|d| - 1]); }
    IntStripStripped(x);
  }

  /** int() of a numeral without sign. */
  lemma ParseNonNegative(n: nat)
    ensures ParseInt(Digits(n)) == Some(n)
  {
    var d := Digits(n);
    DigitRunGroups(d);
    assert d == "" + d + "";
    ParseUnsigned("", d, "");
  }

  /** int() of a digit-group numeral with int() whitespace around it is the number
      its digits denote. */
  lemma ParseUnsigned(w1: string, g: string, w2: string)
    requires AllIntSpace(w1) && AllIntSpace(w2) && DigitGroups(g)
    ensures ParseInt(w1 + g + w2) == Some(ValueOf(Unscore(g)) as int)
  {
    var x := w1 + g + w2;
    assert IntStrip(x) == g by {
      assert IntStripped(g) by { assert IsDigit(g[0]) && IsDigit(g[|g| - 1]); }
      IntStripFramed(w1, g, w2);
      IntStripStripped(g);
    }
    assert IsDigit(g[0]);
    SignedGroupsUnsigned(g);
  }

  /** int() of a signed digit-group numeral with int() whitespace around it: `-`
      negates the number and `+` keeps it. */
  lemma ParseSigned(w1: string, sign: char, g: string, w2: string)
    requires AllIntSpace(w1) && AllIntSpace(w2) && DigitGroups(g)
    requires sign == '-' || sign == '+'
    ensures ParseInt(w1 + [sign] + g + w2)
            == Some(if sign == '-' then -(ValueOf(Unscore(g)) as int) else ValueOf(Unscore(g)) as int)
  {
    var t := [sign] + g;
    var x := w1 + [sign] + g + w2;
    assert IntStrip(x) == t by {
      assert IntStripped(t) by { assert t[0] == sign && t[|t| - 1] == g[|g| - 1] && IsDigit(g[|g| - 1]); }
      assert x == w1 + t + w2;
      IntStripFramed(w1, t, w2);
      IntStripStripped(t);
    }
    SignedStrip(x, sign, g);
  }

  /** int() of a text that strips to a sign followed by digit groups. */
  lemma SignedStrip(x: string, sign: char, g: string)
    requires DigitGroups(g) && (sign == '-' || sign == '+')
    requires IntStrip(x) == [sign] + g
    ensures ParseInt(x) == Some(if sign == '-' then -(ValueOf(Unscore(g)) as int) else ValueOf(Unscore(g)) as int)
  {
    SignedGroupsSign(sign, g);
  }

  /** Unscore works piece by piece. */
  lemma {:induction false} UnscoreAppend(x: string, y: string)
    requires forall i :: 0 <= i < |x| ==> GroupChar(x[i])
    requires forall i :: 0 <= i < |y| ==> GroupChar(y[i])
    ensures forall i :: 0 <= i < |x + y| ==> GroupChar((x + y)[i])
    ensures Unscore(x + y) == Unscore(x) + Unscore(y)
    decreases |y|
  {
    if |y| == 0 {
      assert x + y == x;
    } else {
      var y' := y[..|y| - 1];
      var c := y[|y| - 1];
      assert y == y' + [c];
      assert x + y == (x + y') + [c];
      UnscoreAppend(x, y');
      UnscoreSnoc(x + y', c);
      UnscoreSnoc(y', c);
    }
  }

  /** Two runs of digits joined by one underscore form a digit-group
      numeral. */
  lemma JoinedGroups(a: string, b: string)
    requires AllDigits(a) && AllDigits(b) && |a| > 0 && |b| > 0
    ensures DigitGroups(a + ['_'] + b)
  {
    var p := a + ['_'];
    var g := p + b;
    assert g[0] == a[0] && g[|g| - 1] == b[|b| - 1];
    forall i | 0 <= i < |g| && i != |a| ensures IsDigit(g[i]) {
      if i < |a| { assert g[i] == p[i] == a[i]; }
      else { assert g[i] == b[i - |p|]; }
    }
    assert g[|a|] == '_' && g[|a| + 1] == b[0];
  }

  /** Taking the underscore out of such a numeral leaves the two runs. */
  lemma JoinedUnscore(a: string, b: string)
    requires AllDigits(a) && AllDigits(b)
    ensures forall i :: 0 <= i < |a + ['_'] + b| ==> GroupChar((a + ['_'] + b)[i])
    ensures Unscore(a + ['_'] + b) == a + b
  {
    UnscoreDigits(a);
    UnscoreDigits(b);
    UnscoreSnoc(a, '_');
    assert Unscore(a + ['_']) == a;
    UnscoreAppend(a + ['_'], b);
  }

  /** One underscore between two runs of digits is a separator only:
      int("1_000") == 1000. */
  lemma ParseUnderscoreJoin(a: string, b: string)
    requires AllDigits(a) && AllDigits(b) && |a| > 0 && |b| > 0
    ensures ParseInt(a + "_" + b) == Some(ValueOf(a + b) as int)
  {
    var g := a + "_" + b;
    JoinedGroups(a, b);
    JoinedUnscore(a, b);
    assert g == "" + g + "";
    ParseUnsigned("", g, "");
  }

  /** int() rejects a numeral that starts with an underscore (`_1`). */
  lemma ParseLeadingUnderscore(a: string)
    requires AllDigits(a)
    ensures ParseInt("_" + a).None?
  {
    var x := "_" + a;
    assert IntStripped(x) by { assert x[|x| - 1] == '_' || IsDigit(x[|x| - 1]); }
    IntStripStripped(x);
    ParseIntMeaning(x);
  }

  /** int() rejects a numeral that ends with an underscore (`1_`). */
  lemma ParseTrailingUnderscore(a: string)
    requires AllDigits(a)
    ensures ParseInt(a + "_").None?
  {
    var x := a + "_";
    assert IntStripped(x) by { assert x[0] == '_' || IsDigit(x[0]); }
    IntStripStripped(x);
    assert x[|x| - 1] == '_';
    ParseIntMeaning(x);
  }

  /** int() rejects two underscores in a row (`1__0`). */
  lemma ParseDoubleUnderscore(a: string, b: string)
    requires AllDigits(a) && AllDigits(b) && |a| > 0
    ensures ParseInt(a + "__" + b).None?
  {
    var x := a + "__" + b;
    assert IntStripped(x) by { assert x[0] == a[0]; assert x[|x| - 1] == '_' || IsDigit(x[|x| - 1]); }
    IntStripStripped(x);
    assert x[0] == a[0] && x[|a|] == '_' && x[|a| + 1] == '_';
    ParseIntMeaning(x);
  }

  /** int() rejects an empty or all-whitespace text (ValueError). */
  lemma ParseBlank(s: string)
    requires AllSpace(s)
    ensures ParseInt(s).None?
  {
    IntStripOfSpace(s);
  }

  /** int() does not skip the separators U+001C..U+001F, though str.isspace()
      counts them as whitespace: one before a numeral is a ValueError. */
  lemma ParseSeparatorBefore(c: char, d: string)
    requires '\U{1C}' <= c <= '\U{1F}'
    requires AllDigits(d) && |d| > 0
    ensures IsSpace(c) && ParseInt([c] + d).None?
  {
    var x := [c] + d;
    assert IntStripped(x) by { assert x[0] == c && x[|x| - 1] == d[|d| - 1]; }
    IntStripStripped(x);
  }

  function Pow10(n: nat): (p: nat)
    ensures p >= 1
  {
    if n == 0 then 1 else 10 * Pow10(n - 1)
  }

  /** `n` written with exactly `width` digits, zero-padded on the left
      (strftime's `%m`, `%d` and four-digit `%Y`). */
  function Pad(n: nat, width: nat): (s: string)
    requires n < Pow10(width)
    ensures |s| == width && AllDigits(s)
    ensures ValueOf(s) == n
    decreases width
  {
    if width == 0 then ""
    else
      var s := Pad(n / 10, width - 1) + [DigitChar(n % 10)];
      assert s[..|s| - 1] == Pad(n / 10, width - 1);
      s
  }

  /** A fixed-width digit field is determined by its value: padding the value
      back to the same width gives the same text. */
  lemma {:induction false} PadValueOf(s: string)
    requires AllDigits(s)
    ensures ValueOf(s) < Pow10(|s|)
    ensures Pad(ValueOf(s), |s|) == s
    decreases |s|
  {
    if |s| > 0 {
      var p := s[..|s| - 1];
      PadValueOf(p);
      var v := ValueOf(s);
      assert v / 10 == ValueOf(p);
      assert v % 10 == DigitValue(s[|s| - 1]);
      assert s == p + [s[|s| - 1]];
    }
  }
}

=== FILE: outcomes.dfy ===
/** Failure-carrying wrappers shared by every module of the model. */
module Outcomes {

  /** A value that may be absent: a missing key, a pattern that does not match. */
  datatype Option<+T> = None | Some(value: T)

  /** The outcome of an operation that raises in the Python scripts:
      `Err` stands for the exception and carries what the model records about it. */
  datatype Result<+T, +E> = Ok(value: T) | Err(error: E)
}

=== FILE: record.dfy ===
/** The candidate record of the resume parser: the six-field flat row that
    `save_to_csv` builds from the decoded object. */
module ResumeRecord {
  import opened Outcomes
  import opened Strings
  import opened JsonValues
  import opened Numerals
  import opened Flattener

  /** The row's columns, in the order the dict literal lists them. */
  const ResumeColumns: seq<string> := ["name", "email", "phone", "skills", "education", "work_experience"]

  /** Exceptions the record construction can raise. */
  datatype RecordError =
    | NotAnObject        // the decoded value has no `get` (AttributeError)
    | SkillsNotJoinable  // `", ".join` cannot take the skills value (TypeError)

  /** The strings `", ".join` iterates over for a decoded value, if it can:
      a list of strings gives its items, a string its characters, a mapping
      its keys; anything else raises TypeError. */
  function JoinableItems(v: Json): (r: Option<seq<string>>)
    ensures v.JArr? ==> (r.Some? <==> forall i :: 0 <= i < |v.items| ==> v.items[i].JStr?)
    ensures v.JArr? && r.Some? ==>
              (|r.value| == |v.items| && forall i :: 0 <= i < |v.items| ==> r.value[i] == v.items[i].s)
    ensures v.JStr? ==> r.Some? && |r.value| == |v.s| && forall i :: 0 <= i < |v.s| ==> r.value[i] == [v.s[i]]
    ensures v.JObj? ==> r == Some(Keys(v.members))
    ensures v.JNull? || v.JBool? || v.JInt? ==> r.None?
  {
    match v
    case JArr(items) =>
      if forall i :: 0 <= i < |items| ==> items[i].JStr? then
        Some(seq(|items|, i requires 0 <= i < |items| && items[i].JStr? => items[i].s))
      else None
    case JStr(s) => Some(seq(|s|, i requires 0 <= i < |s| => [s[i]]))
    case JObj(ms) => Some(Keys(ms))
    case _ => None
  }

  /** `", ".join(skills)`. */
  function JoinSkills(v: Json): (r: Result<string, RecordError>)
    ensures r.Ok? <==> JoinableItems(v).Some?
    ensures v == JArr([]) ==> r == Ok("")
    ensures r.Ok? ==> r.value == Join(", ", JoinableItems(v).value)
  {
    match JoinableItems(v)
    case Some(parts) => Ok(Join(", ", parts))
    case None => Err(SkillsNotJoinable)
  }

  /** The six cells of the row `save_to_csv` writes. The scalar cells hold
      whatever the decoded object had (the CSV writer stringifies them). */
  datatype FlatRecord = FlatRecord(
    name: Json, email: Json, phone: Json,
    skills: string, education: string, workExperience: string)
  {
    /** The record as the dict handed to the CSV writer, in column order. */
    function Row(): (r: seq<Member>)
      ensures Keys(r) == ResumeColumns
    {
      [ Member("name", name), Member("email", email), Member("phone", phone),
        Member("skills", JStr(skills)), Member("education", JStr(education)),
        Member("work_experience", JStr(workExperience)) ]
    }
  }

  /** The flat record `save_to_csv` builds: the three scalar fields as
      decoded (default ""), the skills joined by ", ", and education and
      work experience flattened (default [] and so ""). */
  function BuildFlatRecord(data: Json): (r: Result<FlatRecord, RecordError>)
    ensures r.Ok? <==> data.JObj? && JoinSkills(Get(data.members, "skills", JArr([]))).Ok?
    ensures !data.JObj? ==> r == Err(NotAnObject)
    ensures r.Ok? ==> r.value.name == Get(data.members, "name", JStr(""))
    ensures r.Ok? ==> r.value.email == Get(data.members, "email", JStr(""))
    ensures r.Ok? ==> r.value.phone == Get(data.members, "phone", JStr(""))
    ensures r.Ok? ==> Ok(r.value.skills) == JoinSkills(Get(data.members, "skills", JArr([])))
    ensures r.Ok? ==> r.value.education == FlattenSection(Get(data.members, "education", JArr([])))
    ensures r.Ok? ==> r.value.workExperience == FlattenSection(Get(data.members, "work_experience", JArr([])))
  {
    match data
    case JObj(ms) =>
      (match JoinSkills(Get(ms, "skills", JArr([])))
       case Err(e) => Err(e)
       case Ok(skills) =>
         Ok(FlatRecord(
              Get(ms, "name", JStr("")), Get(ms, "email", JStr("")), Get(ms, "phone", JStr("")),
              skills,
              FlattenSection(Get(ms, "education", JArr([]))),
              FlattenSection(Get(ms, "work_experience", JArr([]))))))
    case _ => Err(NotAnObject)
  }

  /** Fields absent from the decoded object come out empty: "" for the
      scalars and, since a missing list defaults to [], "" for the skills
      and the two flattened sections. */
  lemma MissingFieldsEmpty(data: Json)
    requires data.JObj?
    ensures "skills" !in Keys(data.members) ==>
              BuildFlatRecord(data).Ok? && BuildFlatRecord(data).value.skills == ""
    ensures BuildFlatRecord(data).Ok? ==>
              var rec := BuildFlatRecord(data).value;
              && ("name" !in Keys(data.members) ==> rec.name == JStr(""))
              && ("email" !in Keys(data.members) ==> rec.email == JStr(""))
              && ("phone" !in Keys(data.members) ==> rec.phone == JStr(""))
              && ("education" !in Keys(data.members) ==> rec.education == "")
              && ("work_experience" !in Keys(data.members) ==> rec.workExperience == "")
  {
    FlattenEmpty();
  }

  /** The text the CSV writer puts in a cell: None becomes "", anything
      else its str(). */
  function CsvCell(v: Json): (cell: string)
    ensures v.JNull? ==> cell == ""
    ensures v.JStr? ==> cell == v.s
    ensures v.JBool? ==> cell == if v.b then "True" else "False"
    ensures v.JInt? ==> cell == IntToString(v.i) && ParseInt(cell) == Some(v.i)
  {
    if v.JNull? then "" else Str(v)
  }

  /** The written row as a CSV reader gives it back: each column's cell. */
  function CsvRow(rec: FlatRecord): (row: map<string, string>)
    ensures forall c :: c in row <==> c in ResumeColumns
  {
    var cells := rec.Row();
    map c | c in ResumeColumns :: CsvCell(Get(cells, c, JNull))
  }

  /** Every column comes back as written: the three scalar cells as the CSV
      writer stringified them, the three text cells exactly. */
  lemma CsvRowText(rec: FlatRecord)
    ensures "name" in CsvRow(rec) && CsvRow(rec)["name"] == CsvCell(rec.name)
    ensures "email" in CsvRow(rec) && CsvRow(rec)["email"] == CsvCell(rec.email)
    ensures "phone" in CsvRow(rec) && CsvRow(rec)["phone"] == CsvCell(rec.phone)
    ensures "skills" in CsvRow(rec) && CsvRow(rec)["skills"] == rec.skills
    ensures "education" in CsvRow(rec) && CsvRow(rec)["education"] == rec.education
    ensures "work_experience" in CsvRow(rec) && CsvRow(rec)["work_experience"] == rec.workExperience
  {
    CsvRowScalars(rec);
    CsvRowStrings(rec);
  }

  lemma CsvRowScalars(rec: FlatRecord)
    ensures "name" in CsvRow(rec) && CsvRow(rec)["name"] == CsvCell(rec.name)
    ensures "email" in CsvRow(rec) && CsvRow(rec)["email"] == CsvCell(rec.email)
    ensures "phone" in CsvRow(rec) && CsvRow(rec)["phone"] == CsvCell(rec.phone)
  {
    var cells := rec.Row();
    assert Keys(cells) == ResumeColumns;
    assert ResumeColumns[0] == "name" && ResumeColumns[1] == "email" && ResumeColumns[2] == "phone";
    LookupFirst(cells, 0);
    LookupFirst(cells, 1);
    LookupFirst(cells, 2);
  }

  lemma CsvRowStrings(rec: FlatRecord)
    ensures "skills" in CsvRow(rec) && CsvRow(rec)["skills"] == rec.skills
    ensures "education" in CsvRow(rec) && CsvRow(rec)["education"] == rec.education
    ensures "work_experience" in CsvRow(rec) && CsvRow(rec)["work_experience"] == rec.workExperience
  {
    var cells := rec.Row();
    assert Keys(cells) == ResumeColumns;
    assert ResumeColumns[3] == "skills" && ResumeColumns[4] == "education" && ResumeColumns[5] == "work_experience";
    LookupFirst(cells, 3);
    LookupFirst(cells, 4);
    LookupFirst(cells, 5);
  }
}

=== FILE: resume_parser.dfy ===
/** The resume parser's run: the document's text by file extension, the
    model's reply, the candidate object recovered from it, and the flat
    record written out. The PDF and DOCX readers and the model call are
    parameters: the pages' texts, the DOCX text and `ask`. */
module ResumeParser {
  import opened Outcomes
  import opened Strings
  import opened JsonValues
  import opened SpanLocator
  import opened ResumeRecord

  /** The document formats `extract_text` accepts. */
  datatype Format = Pdf | Docx

  /** Why a parser run stops. */
  datatype ParseError =
    | UnsupportedFormat                  // neither ".pdf" nor ".docx" (ValueError)
    | ReplyNotParsed(cause: ExtractError) // the ValueError of `parse_with_llama`
    | RecordFailed(failure: RecordError)  // `save_to_csv` cannot build the row

  /** The format chosen by the path's suffix; ".pdf" is checked first. The
      test is case-sensitive: "CV.PDF" is unsupported. */
  function FormatOf(path: string): (r: Option<Format>)
    ensures r == Some(Pdf) <==> EndsWith(path, ".pdf")
    ensures r == Some(Docx) <==> EndsWith(path, ".docx") && !EndsWith(path, ".pdf")
    ensures r.None? <==> !EndsWith(path, ".pdf") && !EndsWith(path, ".docx")
  {
    if EndsWith(path, ".pdf") then Some(Pdf)
    else if EndsWith(path, ".docx") then Some(Docx)
    else None
  }

  /** A file named `stem.pdf` is read as a PDF. */
  lemma PdfSuffix(stem: string)
    ensures FormatOf(stem + ".pdf") == Some(Pdf)
  {
    assert (stem + ".pdf")[|stem|..] == ".pdf";
  }

  /** A file named `stem.docx` is read as a DOCX document. */
  lemma DocxSuffix(stem: string)
    ensures FormatOf(stem + ".docx") == Some(Docx)
  {
    var p := stem + ".docx";
    assert p[|stem|..] == ".docx";
    assert p[|p| - 1] == 'x';
  }

  /** The pages' texts one after another. */
  function Concat(pages: seq<string>): string
    decreases |pages|
  {
    if |pages| == 0 then "" else Concat(pages[..|pages| - 1]) + pages[|pages| - 1]
  }

  /** `_extract_pdf`: `text += page.get_text()` over the pages, then
      strip(). */
  method ExtractPdf(pages: seq<string>) returns (text: string)
    ensures text == Strip(Concat(pages))
    ensures Stripped(text)
  {
    var acc := "";
    var i := 0;
    while i < |pages|
      invariant 0 <= i <= |pages|
      invariant acc == Concat(pages[..i])
    {
      assert pages[..i + 1][..i] == pages[..i];
      acc := acc + pages[i];
      i := i + 1;
    }
    assert pages[..|pages|] == pages;
    text := Strip(acc);
  }

  /** `extract_text`: the stripped text of the PDF's pages or of the DOCX
      document, chosen by suffix; any other suffix raises ValueError. */
  function ExtractText(path: string, pages: seq<string>, docxText: string): (r: Result<string, ParseError>)
    ensures r == Err(UnsupportedFormat) <==> FormatOf(path).None?
    ensures r.Ok? ==> Stripped(r.value)
    ensures FormatOf(path) == Some(Pdf) ==> r == Ok(Strip(Concat(pages)))
    ensures FormatOf(path) == Some(Docx) ==> r == Ok(Strip(docxText))
  {
    match FormatOf(path)
    case Some(Pdf) => Ok(Strip(Concat(pages)))
    case Some(Docx) => Ok(Strip(docxText))
    case None => Err(UnsupportedFormat)
  }

  /** `run`: extract, ask the model, recover the object, build the row. */
  function RunResumeParser(path: string, pages: seq<string>, docxText: string,
                           ask: string -> string,
                           decode: string -> Option<Json>): (r: Result<FlatRecord, ParseError>)
    ensures FormatOf(path).None? ==> r == Err(UnsupportedFormat)
    ensures r.Ok? ==> FormatOf(path).Some?
    ensures r.Ok? ==> ExtractObject(ask(ExtractText(path, pages, docxText).value), decode).Ok?
    ensures r.Ok? ==> Keys(r.value.Row()) == ResumeColumns
    ensures FormatOf(path).Some? ==>
              var reply := ExtractObject(ask(ExtractText(path, pages, docxText).value), decode);
              && (reply.Err? ==> r == Err(ReplyNotParsed(reply.error)))
              && (reply.Ok? ==> var rec := BuildFlatRecord(reply.value);
                                r == if rec.Ok? then Ok(rec.value) else Err(RecordFailed(rec.error)))
  {
    match ExtractText(path, pages, docxText)
    case Err(e) => Err(e)
    case Ok(text) =>
      match ExtractObject(ask(text), decode)
      case Err(e) => Err(ReplyNotParsed(e))
      case Ok(data) =>
        match BuildFlatRecord(data)
        case Err(e) => Err(RecordFailed(e))
        case Ok(rec) => Ok(rec)
  }

  /** An unsupported file fails before the model is consulted: the outcome
      is the same whatever the model and the decoder would answer. */
  lemma UnsupportedBeforeModel(path: string, pages: seq<string>, docxText: string,
                               ask1: string -> string, ask2: string -> string,
                               decode1: string -> Option<Json>, decode2: string -> Option<Json>)
    requires FormatOf(path).None?
    ensures RunResumeParser(path, pages, docxText, ask1, decode1)
            == RunResumeParser(path, pages, docxText, ask2, decode2)
            == Err(UnsupportedFormat)
  {
  }

  /** The model is asked about the stripped document text only: two DOCX
      documents whose texts differ only in whitespace before and after the
      text give the same run. */
  lemma OnlyStrippedTextMatters(stem: string, docA: string, w1: string, w2: string,
                                ask: string -> string, decode: string -> Option<Json>)
    requires AllSpace(w1) && AllSpace(w2)
    ensures RunResumeParser(stem + ".docx", [], w1 + docA + w2, ask, decode)
            == RunResumeParser(stem + ".docx", [], docA, ask, decode)
  {
    DocxSuffix(stem);
    StripFramed(w1, docA, w2);
  }

  /** A reply with no `{` before the object and no `}` after it yields
      exactly that object's record, whatever braces the object nests. */
  lemma RecordFromEmbeddedReply(path: string, pages: seq<string>, docxText: string,
                                prefix: string, body: string, suffix: string,
                                ask: string -> string, decode: string -> Option<Json>)
    requires FormatOf(path).Some?
    requires ask(ExtractText(path, pages, docxText).value) == prefix + "{" + body + "}" + suffix
    requires '{' !in prefix && '}' !in suffix
    requires decode("{" + body + "}").Some?
    ensures RunResumeParser(path, pages, docxText, ask, decode)
            == match BuildFlatRecord(decode("{" + body + "}").value)
               case Ok(rec) => Ok(rec)
               case Err(e) => Err(RecordFailed(e))
  {
    var reply := prefix + "{" + body + "}" + suffix;
    EmbeddedSpanRecovered(prefix, "{" + body + "}", suffix, '{', '}');
    assert reply == prefix + ("{" + body + "}") + suffix;
    assert reply[|prefix|..|prefix| + |body| + 2] == "{" + body + "}";
  }
}

=== FILE: skills.dfy ===
/** The skills cell read back by the task planner: split on ",", each piece
    stripped, empty pieces dropped. */
module Skills {
  import opened Strings

  /** A skill as the parser leaves it: non-empty, stripped, without a comma. */
  predicate CleanSkill(s: string) {
    s != "" && Stripped(s) && ',' !in s
  }

  /** The comprehension `[p.strip() for p in pieces if p.strip()]`. */
  function CleanPieces(pieces: seq<string>): (r: seq<string>)
    requires forall i :: 0 <= i < |pieces| ==> ',' !in pieces[i]
    ensures |r| <= |pieces|
    ensures forall i :: 0 <= i < |r| ==> CleanSkill(r[i])
  {
    if |pieces| == 0 then []
    else
      var p := Strip(pieces[0]);
      StripKeepsOut(pieces[0], ',');
      (if p == "" then [] else [p]) + CleanPieces(pieces[1..])
  }

  /** The skills list `read_resume_csv` derives from the skills cell. */
  function ParseSkills(cell: string): (r: seq<string>)
    ensures forall i :: 0 <= i < |r| ==> CleanSkill(r[i])
  {
    CleanPieces(Split(cell, ','))
  }

  lemma {:induction false} CleanPiecesAppend(a: seq<string>, b: seq<string>)
    requires forall i :: 0 <= i < |a| ==> ',' !in a[i]
    requires forall i :: 0 <= i < |b| ==> ',' !in b[i]
    ensures CleanPieces(a + b) == CleanPieces(a) + CleanPieces(b)
    decreases |a|
  {
    if |a| == 0 {
      assert a + b == b;
    } else {
      assert (a + b)[0] == a[0];
      assert (a + b)[1..] == a[1..] + b;
      CleanPiecesAppend(a[1..], b);
    }
  }

  /** Skills keep the order of the cell: the text before a comma contributes
      its skills ahead of the text after it. */
  lemma ParseSkillsAppend(a: string, b: string)
    ensures ParseSkills(a + "," + b) == ParseSkills(a) + ParseSkills(b)
  {
    assert a + "," + b == a + [','] + b;
    SplitAppend(a, b, ',');
    CleanPiecesAppend(Split(a, ','), Split(b, ','));
  }

  /** A clean skill on its own parses to itself. */
  lemma ParseSkillsClean(x: string)
    requires CleanSkill(x)
    ensures ParseSkills(x) == [x]
  {
    SplitJoin([x], ',');
    StripStripped(x);
  }

  /** One piece contributes its stripped text, or nothing when that is empty. */
  lemma CleanPiecesOne(p: string)
    requires ',' !in p
    ensures CleanPieces([p]) == if Strip(p) == "" then [] else [Strip(p)]
  {
    assert [p][1..] == [];
  }

  /** Whitespace around a skill does not reach the list: " Go " gives ["Go"]. */
  lemma ParseSkillsPadded(w1: string, x: string, w2: string)
    requires CleanSkill(x) && AllSpace(w1) && AllSpace(w2)
    ensures ParseSkills(w1 + x + w2) == [x]
  {
    var s := w1 + x + w2;
    assert ',' !in s by {
      forall k | 0 <= k < |s| ensures s[k] != ',' {
        if k < |w1| { assert IsSpace(w1[k]); }
        else if k < |w1| + |x| { assert s[k] == x[k - |w1|]; }
        else { assert IsSpace(w2[k - |w1| - |x|]); }
      }
    }
    SplitJoin([s], ',');
    StripFramed(w1, x, w2);
    StripStripped(x);
    CleanPiecesOne(s);
  }

  /** Space before a comma is dropped too: a cell such as "Go ,SQL" gives
      the two skills ["Go", "SQL"]. */
  lemma ParseSkillsSpaceBeforeComma(x: string, y: string)
    requires CleanSkill(x) && CleanSkill(y)
    ensures ParseSkills(x + " ," + y) == [x, y]
  {
    assert x + " ," + y == (x + " ") + "," + y;
    ParseSkillsAppend(x + " ", y);
    assert AllSpace(" ");
    assert x + " " == "" + x + " ";
    ParseSkillsPadded("", x, " ");
    ParseSkillsClean(y);
  }

  /** A blank cell gives no skills. */
  lemma ParseSkillsBlank(w: string)
    requires AllSpace(w)
    ensures ParseSkills(w) == []
  {
    assert ',' !in w by {
      forall k | 0 <= k < |w| ensures w[k] != ',' { assert IsSpace(w[k]); }
    }
    SplitJoin([w], ',');
    StripAllSpace(w);
    CleanPiecesOne(w);
  }

  /** The space `", ".join` puts after a comma is stripped away again. */
  lemma ParseSkillsLeadingSpace(s: string)
    ensures ParseSkills(" " + s) == ParseSkills(s)
  {
    var parts := Split(s, ',');
    var shifted := [" " + parts[0]] + parts[1..];
    assert ',' !in " " + parts[0];
    forall i | 0 <= i < |shifted| ensures ',' !in shifted[i] {
      if i > 0 { assert shifted[i] == parts[i]; }
    }
    JoinFirstPrefix([','], " ", parts);
    SplitJoin(shifted, ',');
    assert AllSpace(" ");
    StripAfterSpaces(" ", parts[0]);
    assert shifted[1..] == parts[1..];
  }

  /** Prefixing the first part prefixes the joined text. */
  lemma JoinFirstPrefix(sep: string, w: string, parts: seq<string>)
    requires |parts| > 0
    ensures Join(sep, [w + parts[0]] + parts[1..]) == w + Join(sep, parts)
  {
    var shifted := [w + parts[0]] + parts[1..];
    if |parts| > 1 {
      assert shifted[1..] == parts[1..];
    }
  }

  /** Round trip between the two scripts: joining clean skills with ", " (as
      the resume parser writes them) and parsing the cell back (as the task
      planner reads it) gives the original list. */
  lemma {:induction false} SkillsRoundTrip(xs: seq<string>)
    requires forall i :: 0 <= i < |xs| ==> CleanSkill(xs[i])
    ensures ParseSkills(Join(", ", xs)) == xs
    decreases |xs|
  {
    if |xs| == 0 {
      assert Split("", ',') == [""] by { SplitJoin([""], ','); }
    } else if |xs| == 1 {
      ParseSkillsClean(xs[0]);
    } else {
      var rest := Join(", ", xs[1..]);
      assert Join(", ", xs) == xs[0] + "," + (" " + rest);
      assert ParseSkills(Join(", ", xs)) == [xs[0]] + ParseSkills(rest) by {
        ParseSkillsAppend(xs[0], " " + rest);
        ParseSkillsClean(xs[0]);
        ParseSkillsLeadingSpace(rest);
      }
      SkillsRoundTrip(xs[1..]);
      assert [xs[0]] + xs[1..] == xs;
    }
  }
}

=== FILE: span.dfy ===
/** The structured extractor: locating the JSON text inside a model reply
    with the greedy patterns `\{[\s\S]*\}` (objects) and `\[.*\]` under
    DOTALL (arrays), then handing that span to the JSON decoder. */
module SpanLocator {
  import opened Outcomes
  import opened Strings
  import opened JsonValues

  /** A half-open range `[start, end)` of the reply. */
  datatype Span = Span(start: nat, end: nat)

  /** Why no value came out of a reply; both raise ValueError in the source. */
  datatype ExtractError =
    | NoJsonSpan                  // the pattern does not match anywhere
    | MalformedJson(text: string) // the matched text does not decode

  /** `t[i..j]` is matched by the pattern: it starts with `open`, ends with a
      later `close`, and anything (newlines included) lies between them. */
  ghost predicate SpanMatch(t: string, open: char, close: char, i: int, j: int) {
    0 <= i && i + 2 <= j <= |t| && t[i] == open && t[j - 1] == close
  }

  /** The match `re.search` reports: the leftmost start, and at that start
      the longest match, since the greedy middle backtracks from the end. */
  ghost predicate SearchResult(t: string, open: char, close: char, i: int, j: int) {
    && SpanMatch(t, open, close, i, j)
    && (forall i', j' :: SpanMatch(t, open, close, i', j') ==> i <= i')
    && (forall j' :: SpanMatch(t, open, close, i, j') ==> j' <= j)
  }

  /** The span from the first `open` to the last `close`, when that `close`
      lies after the `open`. Nesting is not balanced. */
  function FindSpan(t: string, open: char, close: char): (r: Option<Span>)
    requires open != close
    ensures r.None? <==> forall i, j :: !SpanMatch(t, open, close, i, j)
    ensures r.Some? ==> SearchResult(t, open, close, r.value.start, r.value.end)
  {
    match IndexOfChar(t, open)
    case None => None
    case Some(i) =>
      match LastIndexOfChar(t, close)
      case None => None
      case Some(k) =>
        assert forall i' :: 0 <= i' < i ==> t[i'] == t[..i][i'];
        assert forall j' :: k + 1 <= j' < |t| ==> t[j'] == t[k + 1..][j' - k - 1];
        if k > i then
          assert SpanMatch(t, open, close, i, k + 1);
          Some(Span(i, k + 1))
        else
          None
  }

  /** A span exists exactly when some `close` follows the first `open`. */
  lemma SpanExistsIff(t: string, open: char, close: char)
    requires open != close
    ensures FindSpan(t, open, close).Some? <==>
            (open in t && exists k :: FirstIndex(t, open) < k < |t| && t[k] == close)
  {
    if FindSpan(t, open, close).Some? {
      var s := FindSpan(t, open, close).value;
      assert FirstIndex(t, open) <= s.start;
      assert FirstIndex(t, open) < s.end - 1 < |t| && t[s.end - 1] == close;
    } else if open in t {
      var i := FirstIndex(t, open);
      forall k | i < k < |t| ensures t[k] != close {
        assert !SpanMatch(t, open, close, i, k + 1);
      }
    }
  }

  /** Index of the first `c` in `t` (requires one to be present). */
  function FirstIndex(t: string, c: char): (i: nat)
    requires c in t
    ensures i < |t| && t[i] == c && c !in t[..i]
  {
    IndexOfChar(t, c).value
  }

  /** A value written into otherwise brace-free prose is recovered exactly:
      if the text before it has no `open` and the text after it has no `close`,
      the located span is the embedded text, whatever it nests inside. */
  lemma EmbeddedSpanRecovered(prefix: string, body: string, suffix: string, open: char, close: char)
    requires open != close
    requires |body| >= 2 && body[0] == open && body[|body| - 1] == close
    requires open !in prefix && close !in suffix
    ensures FindSpan(prefix + body + suffix, open, close) == Some(Span(|prefix|, |prefix| + |body|))
  {
    var t := prefix + body + suffix;
    var i := |prefix|;
    var j := |prefix| + |body|;
    assert IndexOfChar(t, open) == Some(i) by {
      assert t[..i] == prefix && t[i] == open;
      FirstIndexAt(t, open, i);
    }
    assert LastIndexOfChar(t, close) == Some(j - 1) by {
      assert t[j..] == suffix && t[j - 1] == close;
      LastIndexAt(t, close, j - 1);
    }
  }

  /** An occurrence with none before it is the one str.find reports. */
  lemma FirstIndexAt(t: string, c: char, i: nat)
    requires i < |t| && t[i] == c && c !in t[..i]
    ensures IndexOfChar(t, c) == Some(i)
  {
  }

  /** An occurrence with none after it is the one str.rfind reports. */
  lemma LastIndexAt(t: string, c: char, i: nat)
    requires i < |t| && t[i] == c && c !in t[i + 1..]
    ensures LastIndexOfChar(t, c) == Some(i)
  {
  }

  /** Locate the span and decode it with `decode` (json.loads), raising
      ValueError when there is no span or the span does not decode. */
  function Extract(t: string, open: char, close: char, decode: string -> Option<Json>): (r: Result<Json, ExtractError>)
    requires open != close
    ensures r == Err(NoJsonSpan) <==> forall i, j :: !SpanMatch(t, open, close, i, j)
    ensures r.Ok? ==> exists i, j :: SearchResult(t, open, close, i, j) && decode(t[i..j]) == Some(r.value)
    ensures r.Err? && r.error.MalformedJson? ==>
              exists i, j :: SearchResult(t, open, close, i, j) && r.error.text == t[i..j] && decode(t[i..j]).None?
    ensures forall i, j :: SearchResult(t, open, close, i, j) ==>
              r == if decode(t[i..j]).Some? then Ok(decode(t[i..j]).value) else Err(MalformedJson(t[i..j]))
  {
    match FindSpan(t, open, close)
    case None => Err(NoJsonSpan)
    case Some(s) =>
      var text := t[s.start..s.end];
      match decode(text)
      case None => Err(MalformedJson(text))
      case Some(v) => Ok(v)
  }

  /** `parse_with_llama`'s recovery of the candidate object from the reply. */
  function ExtractObject(reply: string, decode: string -> Option<Json>): (r: Result<Json, ExtractError>)
    ensures r == Err(NoJsonSpan) <==> forall i, j :: !SpanMatch(reply, '{', '}', i, j)
    ensures r.Ok? ==> exists i, j :: SearchResult(reply, '{', '}', i, j) && decode(reply[i..j]) == Some(r.value)
    ensures r.Err? && r.error.MalformedJson? ==>
              exists i, j :: SearchResult(reply, '{', '}', i, j) && r.error.text == reply[i..j] && decode(reply[i..j]).None?
    ensures forall i, j :: SearchResult(reply, '{', '}', i, j) ==>
              r == if decode(reply[i..j]).Some? then Ok(decode(reply[i..j]).value) else Err(MalformedJson(reply[i..j]))
  {
    Extract(reply, '{', '}', decode)
  }

  /** `generate_tasks`'s recovery of the task list from the reply. */
  function ExtractArray(reply: string, decode: string -> Option<Json>): (r: Result<Json, ExtractError>)
    ensures r == Err(NoJsonSpan) <==> forall i, j :: !SpanMatch(reply, '[', ']', i, j)
    ensures r.Ok? ==> exists i, j :: SearchResult(reply, '[', ']', i, j) && decode(reply[i..j]) == Some(r.value)
    ensures r.Err? && r.error.MalformedJson? ==>
              exists i, j :: SearchResult(reply, '[', ']', i, j) && r.error.text == reply[i..j] && decode(reply[i..j]).None?
    ensures forall i, j :: SearchResult(reply, '[', ']', i, j) ==>
              r == if decode(reply[i..j]).Some? then Ok(decode(reply[i..j]).value) else Err(MalformedJson(reply[i..j]))
  {
    Extract(reply, '[', ']', decode)
  }
}

=== FILE: strings.dfy ===
/** Text helpers with Python's meaning: str.isspace, str.strip, str.join,
    str.split on a one-character separator, the `in` substring test and
    str.endswith. */
module Strings {
  import opened Outcomes

  /** Whitespace as Python's str.isspace() and the `\s` class of `re` on str
      patterns see it. */
  predicate IsSpace(c: char) {
    || ('\t' <= c <= '\r')
    || ('\U{1C}' <= c <= '\U{1F}')
    || c == ' '
    || c == '\U{85}'
    || c == '\U{A0}'
    || c == '\U{1680}'
    || ('\U{2000}' <= c <= '\U{200A}')
    || c == '\U{2028}'
    || c == '\U{2029}'
    || c == '\U{202F}'
    || c == '\U{205F}'
    || c == '\U{3000}'
  }

  predicate AllSpace(s: string) {
    forall i :: 0 <= i < |s| ==> IsSpace(s[i])
  }

  /** No whitespace at either end: the shape str.strip() produces. */
  predicate Stripped(s: string) {
    |s| == 0 || (!IsSpace(s[0]) && !IsSpace(s[|s| - 1]))
  }

  /** str.strip(): `s` without its leading and trailing whitespace. */
  function Strip(s: string): (r: string)
    ensures Stripped(r) && |r| <= |s|
  {
    if |s| > 0 && IsSpace(s[0]) then Strip(s[1..])
    else if |s| > 0 && IsSpace(s[|s| - 1]) then Strip(s[..|s| - 1])
    else s
  }

  /** `r` sits at offset `k` of `s` with only whitespace around it. */
  predicate SpaceFramed(s: string, r: string, k: nat) {
    k + |r| <= |s| && r == s[k..k + |r|] && AllSpace(s[..k]) && AllSpace(s[k + |r|..])
  }

  /** What str.strip() removes is whitespace only, from the two ends only. */
  lemma {:induction false} StripCutsOnlySpace(s: string) returns (k: nat)
    ensures SpaceFramed(s, Strip(s), k)
    decreases |s|
  {
    if |s| > 0 && IsSpace(s[0]) {
      var j := StripCutsOnlySpace(s[1..]);
      FramedAfterSpace(s, Strip(s), j);
      k := j + 1;
    } else if |s| > 0 && IsSpace(s[|s| - 1]) {
      k := StripCutsOnlySpace(s[..|s| - 1]);
      FramedBeforeSpace(s, Strip(s), k);
    } else {
      k := 0;
    }
  }

  lemma FramedAfterSpace(s: string, r: string, j: nat)
    requires |s| > 0 && IsSpace(s[0]) && SpaceFramed(s[1..], r, j)
    ensures SpaceFramed(s, r, j + 1)
  {
    var t := s[1..];
    var k := j + 1;
    assert r == t[j..j + |r|] == s[k..k + |r|];
    assert s[k + |r|..] == t[j + |r|..];
    assert s[..k] == [s[0]] + t[..j];
    AllSpaceAppend([s[0]], t[..j]);
  }

  lemma FramedBeforeSpace(s: string, r: string, k: nat)
    requires |s| > 0 && IsSpace(s[|s| - 1]) && SpaceFramed(s[..|s| - 1], r, k)
    ensures SpaceFramed(s, r, k)
  {
    var t := s[..|s| - 1];
    var m := k + |r|;
    assert r == t[k..m] == s[k..m];
    assert s[..k] == t[..k];
    assert s[m..] == t[m..] + [s[|s| - 1]];
    AllSpaceAppend(t[m..], [s[|s| - 1]]);
  }

  lemma AllSpaceAppend(a: string, b: string)
    requires AllSpace(a) && AllSpace(b)
    ensures AllSpace(a + b)
  {
    forall i | 0 <= i < |a + b| ensures IsSpace((a + b)[i]) {
      if i < |a| { assert (a + b)[i] == a[i]; } else { assert (a + b)[i] == b[i - |a|]; }
    }
  }

  /** Stripping text that is already stripped changes nothing. */
  lemma StripStripped(s: string)
    requires Stripped(s)
    ensures Strip(s) == s
  {
  }

  /** Leading whitespace never survives str.strip(). */
  lemma {:induction false} StripAfterSpaces(w: string, s: string)
    requires AllSpace(w)
    ensures Strip(w + s) == Strip(s)
    decreases |w|
  {
    if |w| > 0 {
      assert (w + s)[0] == w[0] && IsSpace(w[0]);
      assert (w + s)[1..] == w[1..] + s;
      StripAfterSpaces(w[1..], s);
    } else {
      assert w + s == s;
    }
  }

  /** Whitespace alone strips to nothing. */
  lemma StripAllSpace(w: string)
    requires AllSpace(w)
    ensures Strip(w) == ""
  {
    assert w + "" == w;
    StripAfterSpaces(w, "");
  }

  /** Trailing whitespace never survives str.strip(). */
  lemma {:induction false} StripBeforeSpaces(s: string, w: string)
    requires AllSpace(w)
    ensures Strip(s + w) == Strip(s)
    decreases |s| + |w|
  {
    var t := s + w;
    if |s| > 0 && IsSpace(s[0]) {
      assert t[0] == s[0];
      assert t[1..] == s[1..] + w;
      StripBeforeSpaces(s[1..], w);
    } else if |s| == 0 {
      assert t == w;
      StripAllSpace(w);
    } else if |w| > 0 {
      assert t[0] == s[0];
      assert t[|t| - 1] == w[|w| - 1];
      assert t[..|t| - 1] == s + w[..|w| - 1];
      StripBeforeSpaces(s, w[..|w| - 1]);
    } else {
      assert t == s;
    }
  }

  /** Whitespace on either side of a text does not change its strip. */
  lemma StripFramed(w1: string, s: string, w2: string)
    requires AllSpace(w1) && AllSpace(w2)
    ensures Strip(w1 + s + w2) == Strip(s)
  {
    assert w1 + s + w2 == w1 + (s + w2);
    StripAfterSpaces(w1, s + w2);
    StripBeforeSpaces(s, w2);
  }

  /** Stripping only removes characters: it brings in none that were absent. */
  lemma {:induction false} StripKeepsOut(s: string, c: char)
    requires c !in s
    ensures c !in Strip(s)
    decreases |s|
  {
    if |s| > 0 && IsSpace(s[0]) {
      StripKeepsOut(s[1..], c);
    } else if |s| > 0 && IsSpace(s[|s| - 1]) {
      StripKeepsOut(s[..|s| - 1], c);
    }
  }

  /** str.join: the parts in order with `sep` between neighbours. */
  function Join(sep: string, parts: seq<string>): string
  {
    if |parts| == 0 then ""
    else if |parts| == 1 then parts[0]
    else parts[0] + sep + Join(sep, parts[1..])
  }

  /** A join starts with its first part and ends with its last; joining
      nothing gives the empty text. */
  lemma {:induction false} JoinEnds(sep: string, parts: seq<string>)
    ensures |parts| == 0 ==> Join(sep, parts) == ""
    ensures |parts| > 0 ==> var r := Join(sep, parts);
              |parts[0]| <= |r| && r[..|parts[0]|] == parts[0]
    ensures |parts| > 0 ==> var r, last := Join(sep, parts), parts[|parts| - 1];
              |last| <= |r| && r[|r| - |last|..] == last
    decreases |parts|
  {
    if |parts| > 1 {
      var rest := Join(sep, parts[1..]);
      JoinEnds(sep, parts[1..]);
      assert parts[1..][|parts[1..]| - 1] == parts[|parts| - 1];
      var r := parts[0] + sep + rest;
      assert r[..|parts[0]|] == parts[0];
      assert r[|r| - |rest|..] == rest;
    }
  }

  /** Joining two non-empty lists puts exactly one separator between them. */
  lemma {:induction false} JoinAppend(sep: string, a: seq<string>, b: seq<string>)
    requires |a| > 0 && |b| > 0
    ensures Join(sep, a + b) == Join(sep, a) + sep + Join(sep, b)
    decreases |a|
  {
    if |a| == 1 {
      assert (a + b)[1..] == b;
    } else {
      assert (a + b)[1..] == a[1..] + b;
      JoinAppend(sep, a[1..], b);
    }
  }

  /** A character absent from the separator and from every part is absent
      from their join. */
  lemma {:induction false} JoinKeepsOut(sep: string, parts: seq<string>, c: char)
    requires c !in sep
    requires forall i :: 0 <= i < |parts| ==> c !in parts[i]
    ensures c !in Join(sep, parts)
    decreases |parts|
  {
    if |parts| > 1 {
      JoinKeepsOut(sep, parts[1..], c);
    }
  }

  /** Index of the first occurrence of `c` (str.find on one character). */
  function IndexOfChar(s: string, c: char): (r: Option<nat>)
    ensures r.Some? ==> r.value < |s| && s[r.value] == c && c !in s[..r.value]
    ensures r.None? ==> c !in s
  {
    if |s| == 0 then None
    else if s[0] == c then Some(0)
    else match IndexOfChar(s[1..], c)
      case None => None
      case Some(i) =>
        assert s[..i + 1] == [s[0]] + s[1..][..i];
        Some(i + 1)
  }

  /** Index of the last occurrence of `c` (str.rfind on one character). */
  function LastIndexOfChar(s: string, c: char): (r: Option<nat>)
    ensures r.Some? ==> r.value < |s| && s[r.value] == c && c !in s[r.value + 1..]
    ensures r.None? ==> c !in s
  {
    if |s| == 0 then None
    else if s[|s| - 1] == c then Some(|s| - 1)
    else match LastIndexOfChar(s[..|s| - 1], c)
      case None => None
      case Some(i) =>
        assert s[i + 1..] == s[..|s| - 1][i + 1..] + [s[|s| - 1]];
        Some(i)
  }

  /** str.split(sep) for a one-character separator: the maximal pieces between
      separators, always at least one (`"".split(",") == [""]`). */
  function Split(s: string, sep: char): (parts: seq<string>)
    ensures |parts| >= 1
    ensures forall i :: 0 <= i < |parts| ==> sep !in parts[i]
    ensures Join([sep], parts) == s
    decreases |s|
  {
    match IndexOfChar(s, sep)
    case None => [s]
    case Some(i) =>
      var rest := Split(s[i + 1..], sep);
      var parts := [s[..i]] + rest;
      assert parts[1..] == rest;
      assert s == s[..i] + [sep] + s[i + 1..];
      parts
  }

  /** Splitting undoes joining when no part contains the separator. */
  lemma {:induction false} SplitJoin(parts: seq<string>, sep: char)
    requires |parts| >= 1
    requires forall i :: 0 <= i < |parts| ==> sep !in parts[i]
    ensures Split(Join([sep], parts), sep) == parts
    decreases |parts|
  {
    var s := Join([sep], parts);
    if |parts| == 1 {
      assert sep !in parts[0];
    } else {
      var p := parts[0];
      var tail := Join([sep], parts[1..]);
      assert s == p + [sep] + tail;
      assert s[|p|] == sep;
      assert s[..|p|] == p;
      assert IndexOfChar(s, sep) == Some(|p|);
      assert s[|p| + 1..] == tail;
      SplitJoin(parts[1..], sep);
      assert [p] + parts[1..] == parts;
    }
  }

  /** A separator in the text splits it into the pieces of either side. */
  lemma SplitAppend(a: string, b: string, sep: char)
    ensures Split(a + [sep] + b, sep) == Split(a, sep) + Split(b, sep)
  {
    var pa := Split(a, sep);
    var pb := Split(b, sep);
    JoinAppend([sep], pa, pb);
    assert Join([sep], pa + pb) == a + [sep] + b;
    forall i | 0 <= i < |pa + pb|
      ensures sep !in (pa + pb)[i]
    {
      if i < |pa| { assert (pa + pb)[i] == pa[i]; } else { assert (pa + pb)[i] == pb[i - |pa|]; }
    }
    SplitJoin(pa + pb, sep);
  }

  /** `w` occurs in `t` starting at index `k`. */
  predicate OccursAt(t: string, w: string, k: int) {
    0 <= k && k + |w| <= |t| && t[k..k + |w|] == w
  }

  /** Python's `w in t` for strings, searching from index `k` on. */
  function ContainsFrom(t: string, w: string, k: nat): (b: bool)
    ensures b <==> exists j :: k <= j && OccursAt(t, w, j)
    decreases |t| - k
  {
    if k + |w| > |t| then false
    else if t[k..k + |w|] == w then assert OccursAt(t, w, k); true
    else ContainsFrom(t, w, k + 1)
  }

  /** Python's `w in t` for strings. */
  function Contains(t: string, w: string): (b: bool)
    ensures b <==> exists j :: OccursAt(t, w, j)
  {
    ContainsFrom(t, w, 0)
  }

  /** str.endswith(suffix). */
  predicate EndsWith(s: string, suffix: string) {
    |suffix| <= |s| && s[|s| - |suffix|..] == suffix
  }
}

=== FILE: tasks.dfy ===
/** The task planner: reading the candidate row, recovering the task list
    from the model's reply, and resolving each task's due date before the
    plan is written out in a fixed column order. */
module TaskPlan {
  import opened Outcomes
  import opened Strings
  import opened Numerals
  import opened JsonValues
  import opened SpanLocator
  import opened Skills
  import opened JobTitle
  import opened Calendar
  import opened ResumeRecord
  import opened Flattener

  /** What `read_resume_csv` hands to the prompt. */
  datatype ResumeData = ResumeData(
    name: string, email: string, phone: string,
    skills: seq<string>, education: string, workExperience: string,
    jobTitle: string)

  /** A task whose due date cannot be resolved, by its position in the list. */
  datatype TaskError =
    | TaskNotAnObject(index: nat)   // `task.get` on a non-dict (AttributeError)
    | BadOffset(index: nat)         // `int(due)` rejects the value (ValueError, TypeError)
    | DueDateOutOfRange(index: nat) // the date leaves years 1..9999 (OverflowError)

  /** Why a planner run stops. */
  datatype PlanError =
    | NoResumeRow                        // `next(reader)` on a file without rows
    | TaskListNotFound(cause: ExtractError) // the ValueError of `generate_tasks`
    | NotATaskList                       // the decoded value is not a list (a decoder
                                         // given text that starts with `[` never does this)
    | BadStartDate                       // `strptime` rejects the start date
    | TaskFailed(failure: TaskError)

  /** `data.get(key, "")` on a CSV row. */
  function Cell(row: map<string, string>, key: string): string {
    if key in row then row[key] else ""
  }

  /** `read_resume_csv` on the rows of the file: the first row's cells, the
      skills cell split into clean skills, and the job title guessed from
      the work experience. */
  function ReadResume(rows: seq<map<string, string>>): (r: Result<ResumeData, PlanError>)
    ensures r.Err? <==> rows == []
    ensures r.Err? ==> r.error == NoResumeRow
    ensures r.Ok? ==> forall i :: 0 <= i < |r.value.skills| ==> CleanSkill(r.value.skills[i])
    ensures r.Ok? ==> r.value.jobTitle != ""
    ensures r.Ok? ==> && r.value.name == Cell(rows[0], "name")
                      && r.value.email == Cell(rows[0], "email")
                      && r.value.phone == Cell(rows[0], "phone")
                      && r.value.education == Cell(rows[0], "education")
                      && r.value.workExperience == Cell(rows[0], "work_experience")
    ensures r.Ok? ==> r.value.skills == ParseSkills(Cell(rows[0], "skills"))
    ensures r.Ok? ==> r.value.jobTitle == ExtractJobTitle(Cell(rows[0], "work_experience"))
  {
    if rows == [] then Err(NoResumeRow)
    else
      var row := rows[0];
      Ok(ResumeData(
        Cell(row, "name"), Cell(row, "email"), Cell(row, "phone"),
        ParseSkills(Cell(row, "skills")),
        Cell(row, "education"), Cell(row, "work_experience"),
        ExtractJobTitle(Cell(row, "work_experience"))))
  }

  /** Skills written by the resume parser come back unchanged in the
      planner: the decoded list of clean strings is joined with ", " into
      the CSV cell and split, stripped and filtered back into the same list. */
  lemma SkillsSurviveHandOff(data: Json, xs: seq<string>)
    requires data.JObj?
    requires forall i :: 0 <= i < |xs| ==> CleanSkill(xs[i])
    requires Get(data.members, "skills", JArr([])) == JArr(seq(|xs|, i requires 0 <= i < |xs| => JStr(xs[i])))
    ensures BuildFlatRecord(data).Ok?
    ensures ReadResume([CsvRow(BuildFlatRecord(data).value)]).Ok?
    ensures ReadResume([CsvRow(BuildFlatRecord(data).value)]).value.skills == xs
  {
    var v := Get(data.members, "skills", JArr([]));
    assert forall i :: 0 <= i < |xs| ==> v.items[i] == JStr(xs[i]);
    var items := JoinableItems(v);
    assert items.Some?;
    assert items.value == xs;
    var rec := BuildFlatRecord(data).value;
    CsvRowText(rec);
    assert Cell(CsvRow(rec), "skills") == Join(", ", xs);
    SkillsRoundTrip(xs);
  }

  /** `int(due)` for a decoded value: an int as it is, a bool as 0 or 1, a
      string through int()'s parser; None, lists and dicts raise TypeError. */
  function ToInt(v: Json): (r: Option<int>)
    ensures v.JInt? ==> r == Some(v.i)
    ensures v.JBool? ==> r == Some(if v.b then 1 else 0)
    ensures v.JNull? || v.JArr? || v.JObj? ==> r.None?
  {
    match v
    case JInt(i) => Some(i)
    case JBool(b) => Some(if b then 1 else 0)
    case JStr(s) => ParseInt(s)
    case _ => None
  }

  /** A string offset written the way str() writes an int is read back as
      that int, whatever whitespace surrounds it. */
  lemma ToIntOfText(n: int, w: string)
    requires AllIntSpace(w)
    ensures ToInt(JStr(w + IntToString(n))) == Some(n)
  {
    IntStripAfterSpaces(w, IntToString(n));
    ParseIntToString(n);
    IntStripStripped(IntToString(n));
    assert IntStrip(w + IntToString(n)) == IntToString(n);
  }

  /** `task.get("due_in_days", 0)` passed through int(). */
  function DueOffset(task: seq<Member>): (r: Option<int>)
    ensures "due_in_days" !in Keys(task) ==> r == Some(0)
    ensures "due_in_days" in Keys(task) ==> r == ToInt(Lookup(task, "due_in_days").value)
  {
    ToInt(Get(task, "due_in_days", JInt(0)))
  }

  /** The `due_date` text of one task: the start date plus the task's
      offset, in `%Y-%m-%d`. */
  function TaskDue(task: Json, start: Date, index: nat): (r: Result<string, TaskError>)
    requires Valid(start)
    ensures r.Ok? ==> task.JObj? && DueOffset(task.members).Some?
    ensures r.Ok? ==> var e := ParseIsoDate(r.value);
              e.Some? && AddDays(start, DueOffset(task.members).value) == Ok(e.value)
    ensures r.Err? ==> r.error.index == index
  {
    if !task.JObj? then Err(TaskNotAnObject(index))
    else
      match DueOffset(task.members)
      case None => Err(BadOffset(index))
      case Some(n) => ShiftedText(start, n, index)
  }

  /** The start date shifted by `n` days, printed `%Y-%m-%d`. */
  function ShiftedText(start: Date, n: int, index: nat): (r: Result<string, TaskError>)
    requires Valid(start)
    ensures r.Ok? ==> var e := ParseIsoDate(r.value); e.Some? && AddDays(start, n) == Ok(e.value)
    ensures r.Err? ==> r.error == DueDateOutOfRange(index)
  {
    match AddDays(start, n)
    case Err(_) => Err(DueDateOutOfRange(index))
    case Ok(d) =>
      ParseFormat(d);
      Ok(FormatDate(d))
  }

  /** The date a task is due: the start date shifted by the task's offset,
      when the task is a dict, int() accepts its offset and the shifted date
      stays in years 1..9999. */
  function DueDate(task: Json, start: Date): (r: Option<Date>)
    requires Valid(start)
    ensures r.Some? ==> Valid(r.value)
  {
    if task.JObj? && DueOffset(task.members).Some? then
      match AddDays(start, DueOffset(task.members).value)
      case Ok(d) => Some(d)
      case Err(_) => None
    else None
  }

  /** A task's due date resolves exactly when the task is a dict whose
      offset int() accepts and the shifted date stays in years 1..9999; the
      text then reads back as the start date plus the offset. */
  lemma TaskDueMeaning(task: Json, start: Date, index: nat)
    requires Valid(start)
    ensures var r := TaskDue(task, start, index);
            && (r.Ok? <==> DueDate(task, start).Some?)
            && (r.Ok? ==> ParseIsoDate(r.value) == DueDate(task, start))
            && (r.Err? ==> (r.error.TaskNotAnObject? <==> !task.JObj?))
            && (r.Err? ==> (r.error.BadOffset? <==> task.JObj? && DueOffset(task.members).None?))
  {
    if DueDate(task, start).Some? {
      ParseFormat(DueDate(task, start).value);
    }
  }

  /** A task with its `due_date` key set (added at the end when absent). */
  function WithDueDate(task: Json, due: string): (r: Json)
    requires task.JObj?
    ensures r.JObj? && Lookup(r.members, "due_date") == Some(JStr(due))
    ensures forall k :: k != "due_date" ==> Lookup(r.members, k) == Lookup(task.members, k)
    ensures Keys(r.members) == if "due_date" in Keys(task.members) then Keys(task.members)
                               else Keys(task.members) + ["due_date"]
  {
    JObj(SetKey(task.members, "due_date", JStr(due)))
  }

  /** The due date of every task, each resolved independently. */
  function Resolutions(tasks: seq<Json>, start: Date): (dues: seq<Result<string, TaskError>>)
    requires Valid(start)
    ensures |dues| == |tasks|
    ensures forall i :: 0 <= i < |tasks| ==> dues[i] == TaskDue(tasks[i], start, i)
  {
    seq(|tasks|, i requires 0 <= i < |tasks| => TaskDue(tasks[i], start, i))
  }

  /** All the resolved due dates in list order, or the first failure. */
  function Collect(dues: seq<Result<string, TaskError>>): (r: Result<seq<string>, TaskError>)
    requires forall i :: 0 <= i < |dues| ==> (dues[i].Err? ==> dues[i].error.index == i)
    ensures r.Ok? <==> forall i :: 0 <= i < |dues| ==> dues[i].Ok?
    ensures r.Ok? ==> |r.value| == |dues| && forall i :: 0 <= i < |dues| ==> dues[i] == Ok(r.value[i])
    ensures r.Err? ==> r.error.index < |dues| && dues[r.error.index] == Err(r.error)
                       && forall i :: 0 <= i < r.error.index ==> dues[i].Ok?
    decreases |dues|
  {
    if |dues| == 0 then Ok([])
    else
      var k := |dues| - 1;
      assert forall i :: 0 <= i < k ==> dues[..k][i] == dues[i];
      match Collect(dues[..k])
      case Err(e) => Err(e)
      case Ok(done) =>
        match dues[k]
        case Err(e) => Err(e)
        case Ok(due) => Ok(done + [due])
  }

  /** The loop of `save_to_csv` over the tasks: each task gets its
      `due_date`, in list order; the first task that fails stops the run. */
  function InjectDueDates(tasks: seq<Json>, start: Date): (r: Result<seq<Json>, TaskError>)
    requires Valid(start)
    ensures r.Ok? <==> forall i :: 0 <= i < |tasks| ==> TaskDue(tasks[i], start, i).Ok?
    ensures r.Ok? ==> |r.value| == |tasks| && forall i :: 0 <= i < |tasks| ==> tasks[i].JObj?
    ensures r.Ok? ==> forall i :: 0 <= i < |tasks| ==>
              r.value[i] == WithDueDate(tasks[i], TaskDue(tasks[i], start, i).value)
    ensures r.Err? ==> r.error.index < |tasks|
                       && TaskDue(tasks[r.error.index], start, r.error.index) == Err(r.error)
                       && forall i :: 0 <= i < r.error.index ==> TaskDue(tasks[i], start, i).Ok?
  {
    CollectedDues(tasks, start);
    match Collect(Resolutions(tasks, start))
    case Err(e) => Err(e)
    case Ok(texts) =>
      Ok(seq(|tasks|, i requires 0 <= i < |tasks| && tasks[i].JObj? => WithDueDate(tasks[i], texts[i])))
  }

  /** Collecting the resolutions of a task list, in terms of each task's
      own due date. */
  lemma CollectedDues(tasks: seq<Json>, start: Date)
    requires Valid(start)
    ensures var c := Collect(Resolutions(tasks, start));
            && (c.Ok? <==> forall i :: 0 <= i < |tasks| ==> TaskDue(tasks[i], start, i).Ok?)
            && (c.Ok? ==> |c.value| == |tasks| && forall i :: 0 <= i < |tasks| ==>
                  tasks[i].JObj? && TaskDue(tasks[i], start, i) == Ok(c.value[i]))
            && (c.Err? ==>
                  && c.error.index < |tasks|
                  && TaskDue(tasks[c.error.index], start, c.error.index) == Err(c.error)
                  && forall i :: 0 <= i < c.error.index ==> TaskDue(tasks[i], start, i).Ok?)
  {
    var dues := Resolutions(tasks, start);
    assert forall i :: 0 <= i < |tasks| ==> dues[i] == TaskDue(tasks[i], start, i);
  }

  /** Resolving due dates adds the `due_date` key and nothing else: every
      other key keeps its value and its place, and the tasks keep their
      order. */
  lemma OnlyDueDateAdded(tasks: seq<Json>, start: Date, i: nat, key: string)
    requires Valid(start) && InjectDueDates(tasks, start).Ok? && i < |tasks|
    ensures tasks[i].JObj? && InjectDueDates(tasks, start).value[i].JObj?
    ensures var before := tasks[i].members;
            var after := InjectDueDates(tasks, start).value[i].members;
            && (key != "due_date" ==> Lookup(after, key) == Lookup(before, key))
            && Keys(after) == if "due_date" in Keys(before) then Keys(before) else Keys(before) + ["due_date"]
  {
    assert TaskDue(tasks[i], start, i).Ok?;
  }

  /** A task without `due_in_days` is due on the start date. */
  lemma DefaultDueIsStart(task: Json, start: Date, index: nat)
    requires Valid(start) && task.JObj? && "due_in_days" !in Keys(task.members)
    ensures TaskDue(task, start, index) == Ok(FormatDate(start))
  {
    AddZero(start);
  }

  /** A non-negative offset `n` puts the due date `n` calendar days after
      the start, counted one day at a time. */
  lemma DueDateCountsDays(task: Json, start: Date, index: nat, n: nat)
    requires Valid(start) && task.JObj? && DueOffset(task.members) == Some(n)
    requires TaskDue(task, start, index).Ok?
    ensures ParseIsoDate(TaskDue(task, start, index).value) == Some(StepDays(start, n))
  {
    TaskDueMeaning(task, start, index);
    AddDaysCountsDays(start, n);
  }

  /** The output columns, in order. */
  const TaskColumns: seq<string> := ["task_name", "description", "due_in_days", "due_date", "assigned_to", "category"]

  /** The row the CSV writer writes for a task: each column's cell, "" for
      a key the task lacks. */
  function TaskRow(task: seq<Member>): (row: seq<string>)
    ensures |row| == |TaskColumns|
    ensures forall j :: 0 <= j < |TaskColumns| ==>
              row[j] == if TaskColumns[j] in Keys(task) then CsvCell(Lookup(task, TaskColumns[j]).value) else ""
  {
    seq(|TaskColumns|, j requires 0 <= j < |TaskColumns| =>
      match Lookup(task, TaskColumns[j])
      case Some(v) => CsvCell(v)
      case None => "")
  }

  /** Setting `due_date` changes only that column of the written row. */
  lemma RowWithDueDate(ms: seq<Member>, due: string)
    ensures var row := TaskRow(SetKey(ms, "due_date", JStr(due)));
            && row[3] == due
            && forall j :: 0 <= j < |TaskColumns| && j != 3 ==> row[j] == TaskRow(ms)[j]
  {
    var after := SetKey(ms, "due_date", JStr(due));
    assert TaskColumns[3] == "due_date";
    assert Lookup(after, "due_date") == Some(JStr(due));
    forall j | 0 <= j < |TaskColumns| && j != 3
      ensures TaskRow(after)[j] == TaskRow(ms)[j]
    {
      assert TaskColumns[j] != "due_date";
      assert Lookup(after, TaskColumns[j]) == Lookup(ms, TaskColumns[j]);
    }
  }

  /** In the written row of a resolved task, the `due_date` column holds the
      resolved date and every other column is what the task had before. */
  lemma ResolvedRow(tasks: seq<Json>, start: Date, i: nat)
    requires Valid(start) && InjectDueDates(tasks, start).Ok? && i < |tasks|
    ensures tasks[i].JObj?
    ensures var row := TaskRow(InjectDueDates(tasks, start).value[i].members);
            && row[3] == TaskDue(tasks[i], start, i).value
            && forall j :: 0 <= j < |TaskColumns| && j != 3 ==> row[j] == TaskRow(tasks[i].members)[j]
  {
    var due := TaskDue(tasks[i], start, i);
    assert due.Ok?;
    assert InjectDueDates(tasks, start).value[i].members == SetKey(tasks[i].members, "due_date", JStr(due.value));
    RowWithDueDate(tasks[i].members, due.value);
  }

  /** The written row of one task: every column but `due_date` as the task
      had it, and a `due_date` cell that reads back as the task's due date. */
  ghost predicate PlannedRow(task: Json, start: Date, row: seq<string>)
    requires Valid(start)
  {
    && task.JObj? && |row| == |TaskColumns|
    && DueDate(task, start).Some? && ParseIsoDate(row[3]) == DueDate(task, start)
    && forall j :: 0 <= j < |TaskColumns| && j != 3 ==> row[j] == TaskRow(task.members)[j]
  }

  lemma ResolvedPlannedRow(tasks: seq<Json>, start: Date, k: nat)
    requires Valid(start) && InjectDueDates(tasks, start).Ok? && k < |tasks|
    ensures PlannedRow(tasks[k], start, TaskRow(InjectDueDates(tasks, start).value[k].members))
  {
    ResolvedRow(tasks, start, k);
    TaskDueMeaning(tasks[k], start, k);
  }

  /** The rows `save_to_csv` writes: the tasks with their due dates set,
      each laid out in the column order. */
  function PlanRows(tasks: seq<Json>, start: Date): (r: Result<seq<seq<string>>, TaskError>)
    requires Valid(start)
    ensures r.Ok? <==> InjectDueDates(tasks, start).Ok?
    ensures r.Err? ==> r == Err(InjectDueDates(tasks, start).error)
    ensures r.Ok? ==> |r.value| == |tasks|
    ensures r.Ok? ==> forall k :: 0 <= k < |tasks| ==> PlannedRow(tasks[k], start, r.value[k])
  {
    match InjectDueDates(tasks, start)
    case Err(e) => Err(e)
    case Ok(resolved) =>
      var out := seq(|resolved|, k requires 0 <= k < |resolved| => TaskRow(resolved[k].members));
      assert forall k :: 0 <= k < |tasks| ==> PlannedRow(tasks[k], start, out[k]) by {
        forall k | 0 <= k < |tasks| ensures PlannedRow(tasks[k], start, out[k]) {
          ResolvedPlannedRow(tasks, start, k);
        }
      }
      Ok(out)
  }

  /** `run`: read the candidate, ask the model for a plan, recover the task
      list, parse the start date, resolve the due dates and lay out the
      rows. The model call is the parameter `ask` (given the candidate and
      the start date text) and json.loads the parameter `decode`. */
  function RunTaskPlanner(rows: seq<map<string, string>>, startText: string,
                          ask: (ResumeData, string) -> string,
                          decode: string -> Option<Json>): (r: Result<seq<seq<string>>, PlanError>)
    ensures rows == [] ==> r == Err(NoResumeRow)
    ensures r.Ok? ==> ParseIsoDate(startText).Some?
    ensures r.Ok? ==> forall k :: 0 <= k < |r.value| ==>
              |r.value[k]| == |TaskColumns| && ParseIsoDate(r.value[k][3]).Some?
    ensures rows != [] ==>
              var reply := ExtractArray(ask(ReadResume(rows).value, startText), decode);
              var start := ParseIsoDate(startText);
              && (reply.Err? ==> r == Err(TaskListNotFound(reply.error)))
              && (reply.Ok? && start.None? ==> r == Err(BadStartDate))
              && (reply.Ok? && start.Some? && !reply.value.JArr? ==> r == Err(NotATaskList))
              && (reply.Ok? && start.Some? && reply.value.JArr? ==>
                    var plan := PlanRows(reply.value.items, start.value);
                    r == if plan.Ok? then Ok(plan.value) else Err(TaskFailed(plan.error)))
  {
    match ReadResume(rows)
    case Err(e) => Err(e)
    case Ok(resume) =>
      match ExtractArray(ask(resume, startText), decode)
      case Err(e) => Err(TaskListNotFound(e))
      case Ok(parsed) =>
        match ParseIsoDate(startText)
        case None => Err(BadStartDate)
        case Some(start) =>
          if !parsed.JArr? then Err(NotATaskList)
          else
            match PlanRows(parsed.items, start)
            case Err(e) => Err(TaskFailed(e))
            case Ok(out) => Ok(out)
  }

  /** The task list is recovered before the start date is looked at: a
      reply without a parseable list fails the run whatever the start date. */
  lemma ReplyCheckedBeforeStartDate(rows: seq<map<string, string>>, startText: string,
                                    ask: (ResumeData, string) -> string,
                                    decode: string -> Option<Json>)
    requires rows != []
    requires ExtractArray(ask(ReadResume(rows).value, startText), decode).Err?
    ensures RunTaskPlanner(rows, startText, ask, decode)
              == Err(TaskListNotFound(ExtractArray(ask(ReadResume(rows).value, startText), decode).error))
  {
  }

  /** A dict task whose offset int() reads as `n` is due on the start date
      shifted by `n`, written `%Y-%m-%d`. */
  lemma TaskDueOfShift(task: Json, start: Date, index: nat, n: int, e: Date)
    requires Valid(start) && task.JObj? && DueOffset(task.members) == Some(n)
    requires Valid(e) && Ordinal(e) == Ordinal(start) + n
    ensures TaskDue(task, start, index) == Ok(FormatDate(e))
  {
    AddDaysTo(start, n, e);
  }

  /** A negative offset is applied, not rejected: the task falls due that
      many days before the start, as long as the date stays after year 0. */
  lemma NegativeOffsetApplied(task: Json, start: Date, index: nat, n: int)
    requires Valid(start) && task.JObj? && DueOffset(task.members) == Some(n)
    requires n < 0 && Ordinal(start) + n >= 1
    ensures TaskDue(task, start, index).Ok?
    ensures var due := ParseIsoDate(TaskDue(task, start, index).value);
            due.Some? && Ordinal(due.value) == Ordinal(start) + n < Ordinal(start)
  {
    ValidOrdinalRange(start);
    TaskDueMeaning(task, start, index);
  }

  /** The parser writes a work-experience entry `{"position": "X"}` as
      `position: X`, without quotes, so the planner's position pattern never
      fires on the text the parser wrote from plain entries: the title read
      back comes from the keywords alone. */
  lemma TitleFromKeywordsOnly(data: Json, items: seq<Json>)
    requires data.JObj? && BuildFlatRecord(data).Ok?
    requires Get(data.members, "work_experience", JArr([])) == JArr(items)
    requires forall i :: 0 <= i < |items| ==> PlainEntry(items[i])
    ensures var t := BuildFlatRecord(data).value.workExperience;
            ReadResume([CsvRow(BuildFlatRecord(data).value)]).value.jobTitle ==
              if exists j :: OccursAt(t, "Engineer", j) then "Engineer"
              else if exists j :: OccursAt(t, "Intern", j) then "Intern"
              else if exists j :: OccursAt(t, "Manager", j) then "Manager"
              else "New Hire"
  {
    var rec := BuildFlatRecord(data).value;
    CsvRowText(rec);
    FlattenWritesNoQuote(items);
    QuoteFreeTitle(rec.workExperience);
  }


  /** A résumé whose only work experience is `{"position": title}` is
      written as `position: title`, and the planner's title is then one of
      the fixed keyword answers, never read from the position itself. */
  lemma PositionBecomesKeyword(title: string)
    requires '"' !in title
    ensures var data := JObj([Member("work_experience", JArr([JObj([Member("position", JStr(title))])]))]);
            && BuildFlatRecord(data).Ok?
            && BuildFlatRecord(data).value.workExperience == "position: " + title
            && ReadResume([CsvRow(BuildFlatRecord(data).value)]).value.jobTitle
                 in {"Engineer", "Intern", "Manager", "New Hire"}
  {
    var entry := JObj([Member("position", JStr(title))]);
    var data := JObj([Member("work_experience", JArr([entry]))]);
    PositionWritten(title);
    assert PlainEntry(entry);
    TitleFromKeywordsOnly(data, [entry]);
  }

  /** The flat record of a résumé whose only work experience is
      `{"position": title}`. */
  lemma PositionWritten(title: string)
    ensures var data := JObj([Member("work_experience", JArr([JObj([Member("position", JStr(title))])]))]);
            && BuildFlatRecord(data).Ok?
            && BuildFlatRecord(data).value.workExperience == "position: " + title
  {
    var entry := JObj([Member("position", JStr(title))]);
    var data := JObj([Member("work_experience", JArr([entry]))]);
    assert Keys(data.members) == ["work_experience"];
    MissingFieldsEmpty(data);
    assert FlattenSection(JArr([entry])) == "position: " + title by {
      FlattenSingle(entry);
      MappingSingle("position", JStr(title));
    }
  }

}
